=== FILE: README.md ===
# Live code collaboration: session store and UI deciders in Dafny

This project models the core of a browser-based coding-interview
application, `live-code-collab`. The core is a mock in-memory session store
with a subscriber registry. The model also covers the small decisions made by
the UI components that render its state.

- **Session store** (`api.dfy`, module `Api`). The store holds two maps: session id to
  session, and session id to registered callbacks. Every operation is one atomic
  transition. Every store call except subscribe and unsubscribe returns a
  `Step`: the new store, the caller's result (or the one error,
  `SessionNotFound`, whose message is "Session not found"), and the ordered
  list of callback deliveries it caused. Subscribe and unsubscribe return the
  new store only, and `Notify` produces the deliveries. The operations are
  `createSession`, `joinSession`, `getSession`, `updateCode`,
  `changeLanguage`, `executeCode`, `leaveSession`, `subscribe`, the
  unsubscribe function that `subscribe` returns, and the fan-out in
  `notifySubscribers`.
- **Store properties** (`store_properties.dfy`). These lemmas relate several
  calls: last-writer-wins, idempotence, language reset discarding edits,
  output replacement, and the subscribe/unsubscribe round trip.
- **Lifecycle** (`lifecycle.dfy`). Each store call is an `Op`, and the store is
  a state machine over those steps. Every step preserves an invariant: each
  session is keyed by its own id, has exactly one host, and lists that host
  first; no registry holds a duplicate. For creations with an unused id
  (`FreshFor`/`FreshAlong`), sessions and participants are never removed, and
  no participant's id, name or role ever changes. A creation that reuses a
  stored id replaces that session, as `Map.set` does. Every store
  reachable from the empty start satisfies the invariant. These claims are
  about the store's own operations. The code a session runs is not allowed
  to touch the store (see "Left out").
- **Vocabulary** (`interview.dfy`). This module holds the participants,
  sessions, execution results and code changes, plus the five-language
  configuration table (label, extension, starter template).
- **UI deciders** (`participant_list.dfy`, `create_session_dialog.dfy`,
  `join_session_dialog.dfy`, `output_panel.dfy`). These cover the online count,
  the five-avatar slice and "+N" badge, and the avatar highlight and tooltip.
  They also cover the dialogs' trimmed-field submit guards, disabled
  conditions, captions and initial forms. The output panel's pane and status
  badge are modelled too.
- **Helpers** (`seqs.dfy`, `strings.dfy`). These model the JavaScript
  built-ins the code relies on: order-preserving `filter`, `trim` with the
  ECMAScript whitespace set, `includes`, `toLowerCase`, and `join`.

The subscriber registry is a duplicate-free sequence rather than a set. A
JavaScript `Set` iterates in insertion order, so the sequence captures both
membership and delivery order. Fresh ids from the id generator are parameters
of the operations. `CreateSession` has no precondition on its id: like
`Map.set` in the source, it would overwrite an existing session. That the id is
unused is a hypothesis of the lemmas that need it (`FreshFor`, `FreshAlong`).

Two behaviours of the code are worth noting:
- `leaveSession` on a known session with an unknown participant still
  re-stores the session and notifies every listener. It is not a complete
  no-op.
- Notification hands each callback a shallow copy (`{ ...session }`), not a
  deep copy. With value semantics the distinction does not arise here, and no
  isolation property is claimed.

## Model

| member | source | states |
|---|---|---|
| `Api.CreateSession` | 02-end-to-end/live-code-collab/src/services/api.ts:27-52 | The new session has the given id, title and language, the language's starter code and no output. It has exactly one participant: the online host named `hostName`. It is stored under its id, every other session is unchanged, the registry is untouched and no one is notified. |
| `Api.JoinSession` | 02-end-to-end/live-code-collab/src/services/api.ts:58-82 | It fails with `SessionNotFound` exactly when the id is unknown, and then changes nothing and notifies no one. Otherwise one online, non-host participant with the given name and id is appended at the end, earlier participants and all other fields are kept, and exactly the session's listeners are notified in order with the new session. |
| `Api.GetSession` | 02-end-to-end/live-code-collab/src/services/api.ts:87-90 | It returns the stored session exactly when the id is known, and otherwise nothing. The store is unchanged and no one is notified. |
| `Api.UpdateCode` | 02-end-to-end/live-code-collab/src/services/api.ts:95-110 | It fails with `SessionNotFound` exactly when the session is unknown, with no effect. Otherwise the code becomes the change's code verbatim, no other field changes, and the listeners are notified. |
| `Api.ChangeLanguage` | 02-end-to-end/live-code-collab/src/services/api.ts:115-130 | It fails with `SessionNotFound` exactly when the session is unknown, with no effect. Otherwise it sets the language, resets the code to that language's starter template, leaves every other field as it was, and notifies the listeners. |
| `Api.ExecuteCode` | 02-end-to-end/live-code-collab/src/services/api.ts:135-193 | It fails with `SessionNotFound` exactly when the session is unknown, with no effect. Otherwise a JavaScript session gets the result of its run and any other language gets the canned result. The result replaces the session's output, and the listeners are notified whether or not the run succeeded. |
| `Api.JsResult` | 02-end-to-end/live-code-collab/src/services/api.ts:147-178 | A completed run succeeds with no error and non-empty output ("No output" when nothing was logged). A thrown run fails with empty output, and its error is the thrown message, or "Unknown error" for a non-`Error` value. With `Api.EveryLineAppears`, every console line of a completed run (log, error or warn) appears in its output. |
| `Api.ConsoleLine` | 02-end-to-end/live-code-collab/src/services/api.ts:151-153 | A console line ends with the call's text. `log` adds nothing before it, `error` adds "Error: " and `warn` adds "Warning: ". |
| `Api.EveryLineAppears` | 02-end-to-end/live-code-collab/src/services/api.ts:149-170 | Every console line of a completed run appears in the output, whether it came from `log`, `error` or `warn`, and with its "Error: " or "Warning: " prefix. |
| `Api.LoggedTextAppearsInOutput` | 02-end-to-end/live-code-collab/src/services/api.ts:149-170 | Any text passed to `console.log` in a completed run appears in the output. |
| `Api.NoOutputFallback` | 02-end-to-end/live-code-collab/src/services/api.ts:168 | The joined console lines are empty exactly when the run made no console call, or a single `console.log` of empty text. In those cases the output falls back to "No output". |
| `Api.MockOutput` | 02-end-to-end/live-code-collab/src/services/api.ts:183 | The canned output contains "Mock execution" and the language's label. |
| `Api.MockResult` | 02-end-to-end/live-code-collab/src/services/api.ts:179-186 | A non-JavaScript run always succeeds with no error, and its output names the language's label. |
| `Api.FindParticipant` | 02-end-to-end/live-code-collab/src/services/api.ts:204 | The result is the first index holding the id, or nothing exactly when no participant has that id. |
| `Api.MarkOffline` | 02-end-to-end/live-code-collab/src/services/api.ts:204-207 | Only the first participant with the id changes, and only its online flag, which becomes false. The length is unchanged. |
| `Api.LeaveSession` | 02-end-to-end/live-code-collab/src/services/api.ts:198-211 | An unknown session is a silent no-op. Otherwise the new participant list is exactly the old one with only the first participant holding the id marked offline. Participants with other ids are unchanged, and a matching participant keeps its id, name and role. An unknown participant leaves the session as it was, but the listeners are still notified. |
| `Api.Subscribe` | 02-end-to-end/live-code-collab/src/services/api.ts:216-222 | A new callback is appended to the session's listeners and a registered one changes nothing. Sessions and other sessions' listeners are untouched. |
| `Api.Without` | 02-end-to-end/live-code-collab/src/services/api.ts:225 | A callback remains exactly when it was registered and is not the removed one. An absent callback leaves the sequence as it was. In a duplicate-free registry, removing a present callback deletes exactly its position: the others keep their registration order, and none is repeated. |
| `Api.Unsubscribe` | 02-end-to-end/live-code-collab/src/services/api.ts:224-226 | Exactly the given callback is removed from that session's listeners, and the rest keep their registration order with no repeats. An unregistered callback changes nothing. Sessions, the registry's keys and other sessions' listeners are unchanged. |
| `Api.Notify` | 02-end-to-end/live-code-collab/src/services/api.ts:231-236 | Exactly the session's registered callbacks are invoked, in registration order, each with the session, and none when nothing is registered. |
| `StoreProperties.CreateTwiceDistinct` | 02-end-to-end/live-code-collab/src/services/api.ts:30-51 | Two creations with fresh ids yield distinct ids. Both sessions stay stored and the store grows by two. |
| `StoreProperties.UpdateCodeIdempotent` | 02-end-to-end/live-code-collab/src/services/api.ts:103-104 | Applying the same change twice leaves the same store as applying it once. |
| `StoreProperties.UpdateCodeLastWriterWins` | 02-end-to-end/live-code-collab/src/services/api.ts:98-104 | Of two changes to one session, the store afterwards depends only on the second. |
| `StoreProperties.UpdateCodeIgnoresAuthor` | 02-end-to-end/live-code-collab/src/services/api.ts:95-104 | The change's participant id has no influence on the outcome. |
| `StoreProperties.ChangeLanguageDiscardsEdits` | 02-end-to-end/live-code-collab/src/services/api.ts:123-124 | A language change after an edit gives the same store as the language change alone. |
| `StoreProperties.ChangeLanguageIdempotent` | 02-end-to-end/live-code-collab/src/services/api.ts:118-125 | Changing to the same language twice equals changing once. |
| `StoreProperties.ExecuteKeepsLatestOnly` | 02-end-to-end/live-code-collab/src/services/api.ts:188-189 | After two runs the session holds only the second result. Every other field is as it was before both runs. |
| `StoreProperties.LeaveIdempotent` | 02-end-to-end/live-code-collab/src/services/api.ts:201-210 | Leaving twice gives the same store as leaving once. |
| `StoreProperties.SubscribeIdempotent` | 02-end-to-end/live-code-collab/src/services/api.ts:217-221 | Registering the same callback twice is a single registration. |
| `StoreProperties.RegistryStaysDuplicateFree` | 02-end-to-end/live-code-collab/src/services/api.ts:216-226 | Subscribe and unsubscribe keep every session's registry free of duplicates. |
| `StoreProperties.UnsubscribeUndoesSubscribe` | 02-end-to-end/live-code-collab/src/services/api.ts:216-226 | Unsubscribing a callback that subscribing had just added restores every session's listeners. |
| `StoreProperties.UnsubscribedMissesUpdates` | 02-end-to-end/live-code-collab/src/services/api.ts:224-235 | After unsubscribing, a code update never reaches the removed callback and still reaches every other listener. |
| `StoreProperties.NotFoundMessage` | 02-end-to-end/live-code-collab/src/services/api.ts:62-64 | The error's message is "Session not found". |
| `Lifecycle.CreateWellFormed` | 02-end-to-end/live-code-collab/src/services/api.ts:33-49 | A new session is keyed by its own id and has exactly one host, listed first. |
| `Lifecycle.ApplyPreservesValid` | 02-end-to-end/live-code-collab/src/services/api.ts:39-75 | Every operation preserves the invariant (one host, listed first, and duplicate-free registries). This holds even for a creation that overwrites an existing id. |
| `Lifecycle.JoinPreservesValid` | 02-end-to-end/live-code-collab/src/services/api.ts:66-76 | A join keeps the invariant, because the newcomer is never a host. |
| `Lifecycle.LeavePreservesValid` | 02-end-to-end/live-code-collab/src/services/api.ts:201-210 | Leaving keeps the invariant, because going offline never changes who is host. |
| `Lifecycle.JoinGrows` | 02-end-to-end/live-code-collab/src/services/api.ts:66-76 | A join keeps every session and every earlier participant in place. |
| `Lifecycle.LeaveGrows` | 02-end-to-end/live-code-collab/src/services/api.ts:201-210 | Leaving keeps every session, and every participant's id, name and role. |
| `Lifecycle.ApplyOnlyGrows` | 02-end-to-end/live-code-collab/src/services/api.ts:75-207 | For a creation with an unused id (`FreshFor`) and every other operation, no session or participant is removed, and no participant's id, name or host flag changes. |
| `Lifecycle.RunPreservesValid` | 02-end-to-end/live-code-collab/src/services/api.ts:13-14 | Any sequence of operations preserves the invariant. |
| `Lifecycle.RunOnlyGrows` | 02-end-to-end/live-code-collab/src/services/api.ts:61-210 | Over any sequence of operations whose creations get unused ids (`FreshAlong`), sessions and participants are never removed or re-identified. |
| `Lifecycle.ReachableStoresValid` | 02-end-to-end/live-code-collab/src/services/api.ts:13-14 | Every store reachable from the empty start, by any sequence of operations, satisfies the invariant. |
| `Interview.Config` | 02-end-to-end/live-code-collab/src/types/interview.ts:35-60 | The table is total over the five languages, and every entry has a non-empty label, extension and starter code. |
| `Interview.LanguagesComplete` | 02-end-to-end/live-code-collab/src/types/interview.ts:19 | There are exactly five distinct languages and the list misses none. |
| `Interview.ConfigLabels` | 02-end-to-end/live-code-collab/src/types/interview.ts:37-57 | The labels are JavaScript, TypeScript, Python, Java and C++. |
| `Interview.ConfigExtensions` | 02-end-to-end/live-code-collab/src/types/interview.ts:38-58 | The extensions are js, ts, py, java and cpp. |
| `Interview.ConfigDistinct` | 02-end-to-end/live-code-collab/src/types/interview.ts:35-60 | No two languages share a label or an extension. |
| `Interview.DefaultCodeMentionsSolution` | 02-end-to-end/live-code-collab/src/types/interview.ts:36-60 | Every starter template contains "solution", ignoring case. |
| `Interview.PythonDefaultCode` | 02-end-to-end/live-code-collab/src/types/interview.ts:49 | The Python template contains "def solution" and "print". |
| `Strings.Trim` | 02-end-to-end/live-code-collab/src/components/CreateSessionDialog.tsx:35 | The result is empty exactly when the input is all whitespace, and otherwise neither starts nor ends with whitespace. |
| `Strings.TrimIsInfix` | 02-end-to-end/live-code-collab/src/components/CreateSessionDialog.tsx:35-36 | The trimmed value is a contiguous piece of the input, and everything cut away before and after it is whitespace. |
| `Strings.TrimIdempotent` | 02-end-to-end/live-code-collab/src/components/CreateSessionDialog.tsx:36 | Trimming a trimmed value changes nothing. |
| `Strings.TrimIgnoresPadding` | 02-end-to-end/live-code-collab/src/components/JoinSessionDialog.tsx:34-35 | Whitespace added on either side never changes the trimmed value. |
| `Strings.ToLower` | 02-end-to-end/live-code-collab/src/types/interview.test.ts:27 | The lower-cased text has the same length, and each character is lower-cased in place (ASCII letters only). |
| `Strings.Join` | 02-end-to-end/live-code-collab/src/services/api.ts:168 | Joining no lines gives the empty text. Otherwise the result is at least as long as the first line. |
| `Strings.JoinStartsWithFirst` | 02-end-to-end/live-code-collab/src/services/api.ts:168 | The joined text starts with the first line, followed by the separator when more lines follow. |
| `Strings.JoinEmpty` | 02-end-to-end/live-code-collab/src/services/api.ts:168 | With a non-empty separator, the joined text is empty exactly when there are no parts, or a single empty one. |
| `Strings.JoinContainsParts` | 02-end-to-end/live-code-collab/src/services/api.ts:168 | Every joined line can be found in the joined text. |
| `ParticipantList.OnlineParticipants` | 02-end-to-end/live-code-collab/src/components/ParticipantList.tsx:10 | It holds exactly the participants that are online. |
| `ParticipantList.OnlineParticipantsInOrder` | 02-end-to-end/live-code-collab/src/components/ParticipantList.tsx:10 | The online list of no participants is empty. Appending a participant appends it to the online list exactly when it is online, so the list keeps list order and each participant's multiplicity. |
| `ParticipantList.OnlineCount` | 02-end-to-end/live-code-collab/src/components/ParticipantList.tsx:10 | The displayed count never exceeds the number of participants, and it is zero exactly when no participant is online. |
| `ParticipantList.OnlineCountIsIndexCount` | 02-end-to-end/live-code-collab/src/components/ParticipantList.tsx:10 | The displayed count equals the number of list positions holding an online participant. |
| `ParticipantList.VisibleParticipants` | 02-end-to-end/live-code-collab/src/components/ParticipantList.tsx:20 | The avatars are the first min(5, online count) online participants, in list order. No offline participant is shown. |
| `ParticipantList.Overflow` | 02-end-to-end/live-code-collab/src/components/ParticipantList.tsx:38-40 | The badge is present exactly when more than five participants are online, and then shows a positive number. |
| `ParticipantList.AvatarsAndBadgeCoverOnline` | 02-end-to-end/live-code-collab/src/components/ParticipantList.tsx:20-40 | The number of avatars plus the badge number equals the online count. |
| `ParticipantList.Initial` | 02-end-to-end/live-code-collab/src/components/ParticipantList.tsx:30 | The initial is empty for an empty name. Otherwise it is one character: the name's first character, upper-cased, so it agrees with that character up to case and is never a lower-case ASCII letter. |
| `ParticipantList.RenderAvatar` | 02-end-to-end/live-code-collab/src/components/ParticipantList.tsx:21-33 | The avatar is highlighted exactly when its id is the current participant's. The tooltip is the name, followed by " (Host)" exactly for the host, who also gets the crown. The letter drawn is the initial of the participant's name. |
| `ParticipantList.Render` | 02-end-to-end/live-code-collab/src/components/ParticipantList.tsx:9-46 | The count is the number of online positions, and there are min(5, count) avatars. The i-th avatar is the i-th visible online participant rendered for the current viewer, in list order. The badge is present exactly when count > 5 and makes up the difference. |
| `ParticipantList.EightOnlineShowsPlusThree` | 02-end-to-end/live-code-collab/src/components/ParticipantList.test.tsx:44-56 | Eight online participants show five avatars and "+3". |
| `ParticipantList.JoinRaisesOnlineCount` | 02-end-to-end/live-code-collab/src/services/api.ts:66-75 | A join raises the session's online count by one. |
| `ParticipantList.LeaveLowersOnlineCount` | 02-end-to-end/live-code-collab/src/services/api.ts:204-207 | Leaving never raises the online count. The count drops by one exactly when the first participant with the id was online, and otherwise stays the same. |
| `CreateSessionDialog.HandleSubmit` | 02-end-to-end/live-code-collab/src/components/CreateSessionDialog.tsx:33-38 | A request is submitted exactly when neither title nor host name is all whitespace. It carries the trimmed, non-empty title and host name and the chosen language. |
| `CreateSessionDialog.SubmitDisabled` | 02-end-to-end/live-code-collab/src/components/CreateSessionDialog.tsx:92 | The button is disabled exactly when loading, or when the title or the host name is all whitespace. |
| `CreateSessionDialog.SubmitLabel` | 02-end-to-end/live-code-collab/src/components/CreateSessionDialog.tsx:93 | The caption is "Creating..." exactly when loading. |
| `CreateSessionDialog.EnabledIffSubmits` | 02-end-to-end/live-code-collab/src/components/CreateSessionDialog.tsx:35-92 | When not loading, the button is enabled exactly when pressing it submits. |
| `CreateSessionDialog.InitialFormCannotSubmit` | 02-end-to-end/live-code-collab/src/components/CreateSessionDialog.tsx:29-31 | The dialog opens with "Coding Interview", JavaScript and an empty host name, so submit starts disabled and submits nothing. |
| `CreateSessionDialog.PaddingIgnored` | 02-end-to-end/live-code-collab/src/components/CreateSessionDialog.tsx:35-36 | Whitespace around either field never changes what is submitted. |
| `CreateSessionDialog.ResubmitIsStable` | 02-end-to-end/live-code-collab/src/components/CreateSessionDialog.tsx:36 | Submitting the submitted values again yields the same request. |
| `JoinSessionDialog.InitialForm` | 02-end-to-end/live-code-collab/src/components/JoinSessionDialog.tsx:27-30 | The session id starts as the given initial id, or empty when none is given. The name starts empty. |
| `JoinSessionDialog.HandleSubmit` | 02-end-to-end/live-code-collab/src/components/JoinSessionDialog.tsx:32-37 | A request is submitted exactly when neither field is all whitespace. It carries the trimmed, non-empty session id and name, in that order. |
| `JoinSessionDialog.SubmitDisabled` | 02-end-to-end/live-code-collab/src/components/JoinSessionDialog.tsx:86 | The button is disabled exactly when loading, or when either field is all whitespace. |
| `JoinSessionDialog.SubmitLabel` | 02-end-to-end/live-code-collab/src/components/JoinSessionDialog.tsx:87 | The caption is "Joining..." exactly when loading. |
| `JoinSessionDialog.EnabledIffSubmits` | 02-end-to-end/live-code-collab/src/components/JoinSessionDialog.tsx:34-86 | When not loading, the button is enabled exactly when pressing it submits. |
| `JoinSessionDialog.InitialFormCannotSubmit` | 02-end-to-end/live-code-collab/src/components/JoinSessionDialog.tsx:27-30 | Whatever id is prefilled, the dialog opens unsubmittable because the name is blank. |
| `JoinSessionDialog.PaddingIgnored` | 02-end-to-end/live-code-collab/src/components/JoinSessionDialog.tsx:34-35 | Whitespace around either field never changes what is submitted. |
| `OutputPanel.SelectPane` | 02-end-to-end/live-code-collab/src/components/OutputPanel.tsx:33-50 | The running pane is shown exactly while executing, whatever the result. The placeholder is shown exactly when idle with no result. The error text is shown exactly when idle with a non-empty error. Otherwise the pane shows the result's output. |
| `OutputPanel.StatusBadge` | 02-end-to-end/live-code-collab/src/components/OutputPanel.tsx:16-25 | The badge is present exactly when there is a result, and shows the success icon exactly when the result succeeded. |
| `OutputPanel.MockRunShowsLanguage` | 02-end-to-end/live-code-collab/src/components/OutputPanel.tsx:38-44 | After a non-JavaScript run, the idle panel shows output naming the language with a success badge. |
| `OutputPanel.ThrownErrorIsShown` | 02-end-to-end/live-code-collab/src/components/OutputPanel.tsx:40-41 | After a JavaScript run that threw a non-empty message, the idle panel shows that message with a failure badge. |
| `OutputPanel.EmptyThrownMessageShowsEmptyOutput` | 02-end-to-end/live-code-collab/src/components/OutputPanel.tsx:40-43 | A run that threw an empty message shows a failure badge but falls through to the empty output pane. |

## Left out

- The session's code runs in `executeCode`'s own scope, so it could reach and mutate `session`, `sessions` or `subscribers`. The model assumes it does not: the `run` outcome cannot touch the store. Lifecycle.ApplyPreservesValid, Lifecycle.ApplyOnlyGrows and the lemmas built on them hold only for code that leaves the store alone.
- Api.Notify: assumes every callback returns normally and leaves the registry alone. In the code, a callback that throws stops `subs.forEach` after the store has already changed. A callback registered during the fan-out is also visited, because `Set.forEach` visits entries added while it runs. The application's only callback stores the session in React state.
- JavaScript evaluation (`eval` of the session code) is outside the model. `Api.ExecuteCode` takes its outcome as the parameter `run`. The model does cover how that outcome becomes a result: line joining, "No output", "Unknown error", and the "Error: " and "Warning: " console prefixes.
- Console argument stringification (`args.map(String).join(' ')`) is not modelled. Each `ConsoleCall` carries its already-joined text.
- Simulated latency (`delay`, `setTimeout`) and promises are not modelled. Each operation is one atomic step.
- The `nanoid` id generator is not modelled. Ids are parameters, and freshness is a lemma hypothesis.
- Timestamps (`createdAt`, `joinedAt`, the change's `timestamp`) are not modelled.
- Clock readings (`performance.now`) are not modelled. The elapsed time is the parameter `elapsed`, and rendering it with `toFixed(0)` is floating-point formatting, also not modelled.
- Object identity and aliasing are not modelled: the in-place mutation of stored sessions, and the shallow snapshot passed to callbacks. Sessions are values here.
- Strings.ToLower: lower-cases only ASCII letters, whereas `toLowerCase` covers all of Unicode. Every string it is applied to here is ASCII.
- ParticipantList.Initial: upper-cases only ASCII letters. Its first character is a Unicode scalar value, whereas `charAt(0)` returns a UTF-16 code unit.
- The React hook around the store (`useInterview.ts`) depends on effect scheduling, so it is not modelled. Neither are the pages (`InterviewRoom.tsx`, `Index.tsx`), which handle routing, toasts and edit debouncing.
- Wrappers over libraries whose code is not shown are not modelled: the header's clipboard copy, the Monaco editor, and the language select.
- The dialogs' open/close and cancel plumbing, and the HTML `required` attribute, are not modelled; they are handled by the browser and the dialog library.
- The test setup file and the separate Django to-do example are not part of this model.

=== FILE: api.dfy ===
/**
  The in-memory session store and its subscriber registry.

  The store is two maps: session id to session, and session id to the
  callbacks registered for it. Every operation is one atomic transition
  from a store to a new store, together with the operation's result and
  the notifications it delivered. Latency, promises and the id generator
  are outside the model: fresh ids arrive as parameters, and whether they
  are unused is a hypothesis of the lemmas that need it, not a
  precondition of the operations (which, like `Map.set`, would overwrite).
 */
module Api {
  import opened Seqs
  import opened Strings
  import opened Interview

  /** The identity of a registered callback function. */
  type CallbackId = nat

  /**
    The store. A session's callbacks are kept in registration order
    without duplicates, which is how a JavaScript `Set` behaves.
   */
  datatype Store = Store(sessions: map<string, Session>, subscribers: map<string, seq<CallbackId>>)

  /** The store when the application starts. */
  const EmptyStore: Store := Store(map[], map[])

  /** The one error the store raises. */
  datatype ApiError = SessionNotFound
  {
    function Message(): string
    {
      "Session not found"
    }
  }

  /** A result or the error that replaced it. */
  datatype Result<T> = Ok(value: T) | Err(error: ApiError)

  /** One callback invocation with the session snapshot it received. */
  datatype Delivery = Delivery(callback: CallbackId, snapshot: Session)

  /** The outcome of one operation: the new store, the caller's result, the callbacks invoked. */
  datatype Step<T> = Step(store: Store, result: T, deliveries: seq<Delivery>)

  /** What `joinSession` resolves to. */
  datatype Joined = Joined(session: Session, participantId: string)

  /** What the JavaScript console stand-in recorded for one call. */
  datatype ConsoleCall = Log(text: string) | ConsoleError(text: string) | Warn(text: string)

  /**
    How evaluating a JavaScript session's code ended; the evaluation itself
    is outside the model. `Threw(None)` is a thrown value that is not an
    `Error` object.
   */
  datatype JsOutcome = Completed(calls: seq<ConsoleCall>) | Threw(message: Option<string>)

  /** The callbacks registered for `sessionId`, in registration order. */
  function Listeners(st: Store, sessionId: string): seq<CallbackId>
  {
    if sessionId in st.subscribers then st.subscribers[sessionId] else []
  }

  /** `ds` invokes exactly the listeners of `sessionId`, in order, each with `s`. */
  ghost predicate NotifiesListeners(ds: seq<Delivery>, st: Store, sessionId: string, s: Session)
  {
    && |ds| == |Listeners(st, sessionId)|
    && forall i :: 0 <= i < |ds| ==> ds[i].callback == Listeners(st, sessionId)[i] && ds[i].snapshot == s
  }

  /** `notifySubscribers`: every listener of the session receives the session. */
  function Notify(st: Store, sessionId: string, s: Session): (ds: seq<Delivery>)
    ensures NotifiesListeners(ds, st, sessionId, s)
  {
    var ls := Listeners(st, sessionId);
    seq(|ls|, i requires 0 <= i < |ls| => Delivery(ls[i], s))
  }

  /** The store with `s` stored under `sessionId`, the registry untouched. */
  function Put(st: Store, sessionId: string, s: Session): Store
  {
    Store(st.sessions[sessionId := s], st.subscribers)
  }

  /**
    `createSession`: a new session holding only its online host, the
    language's starter code and no output. No one is notified.
   */
  function CreateSession(st: Store, title: string, language: Language, hostName: string,
                         sessionId: string, hostId: string): (r: Step<Session>)
    ensures r.result.id == sessionId && r.result.title == title && r.result.language == language
    ensures r.result.code == Config(language).defaultCode && r.result.output == None
    ensures |r.result.participants| == 1
    ensures var host := r.result.participants[0];
            host.id == hostId && host.name == hostName && host.isHost && host.isOnline
    ensures sessionId in r.store.sessions && r.store.sessions[sessionId] == r.result
    ensures forall k :: k in st.sessions && k != sessionId ==> k in r.store.sessions && r.store.sessions[k] == st.sessions[k]
    ensures r.store.sessions.Keys == st.sessions.Keys + {sessionId}
    ensures r.store.subscribers == st.subscribers && r.deliveries == []
  {
    var host := Participant(hostId, hostName, true, true);
    var s := Session(sessionId, title, language, Config(language).defaultCode, [host], None);
    Step(Put(st, sessionId, s), s, [])
  }

  /**
    `joinSession`: appends one online, non-host participant at the end
    and notifies the session's listeners; an unknown id changes nothing.
   */
  function JoinSession(st: Store, sessionId: string, participantName: string, participantId: string): (r: Step<Result<Joined>>)
    ensures sessionId !in st.sessions <==> r.result == Err(SessionNotFound)
    ensures sessionId !in st.sessions ==> r.store == st && r.deliveries == []
    ensures sessionId in st.sessions ==>
      var before := st.sessions[sessionId];
      var after := r.result.value.session;
      && r.result.Ok? && r.result.value.participantId == participantId
      && |after.participants| == |before.participants| + 1
      && after.participants[..|before.participants|] == before.participants
      && after.participants[|before.participants|] == Participant(participantId, participantName, true, false)
      && after == before.(participants := after.participants)
      && r.store == Put(st, sessionId, after)
      && NotifiesListeners(r.deliveries, st, sessionId, after)
  {
    if sessionId !in st.sessions then Step(st, Err(SessionNotFound), [])
    else
      var before := st.sessions[sessionId];
      var joiner := Participant(participantId, participantName, true, false);
      var after := before.(participants := before.participants + [joiner]);
      var st' := Put(st, sessionId, after);
      Step(st', Ok(Joined(after, participantId)), Notify(st', sessionId, after))
  }

  /** `getSession`: the stored session, or nothing; it changes nothing and notifies no one. */
  function GetSession(st: Store, sessionId: string): (r: Step<Option<Session>>)
    ensures r.result.Some? <==> sessionId in st.sessions
    ensures r.result.Some? ==> r.result.value == st.sessions[sessionId]
    ensures r.store == st && r.deliveries == []
  {
    if sessionId in st.sessions then Step(st, Some(st.sessions[sessionId]), [])
    else Step(st, None, [])
  }

  /**
    `updateCode`: the session's code becomes the change's code verbatim,
    nothing else changes, and the listeners are notified.
   */
  function UpdateCode(st: Store, change: CodeChange): (r: Step<Result<Session>>)
    ensures change.sessionId !in st.sessions <==> r.result == Err(SessionNotFound)
    ensures change.sessionId !in st.sessions ==> r.store == st && r.deliveries == []
    ensures change.sessionId in st.sessions ==>
      var after := r.result.value;
      && r.result.Ok?
      && after.code == change.code
      && after == st.sessions[change.sessionId].(code := after.code)
      && r.store == Put(st, change.sessionId, after)
      && NotifiesListeners(r.deliveries, st, change.sessionId, after)
  {
    if change.sessionId !in st.sessions then Step(st, Err(SessionNotFound), [])
    else
      var after := st.sessions[change.sessionId].(code := change.code);
      var st' := Put(st, change.sessionId, after);
      Step(st', Ok(after), Notify(st', change.sessionId, after))
  }

  /**
    `changeLanguage`: sets the language and replaces the code by that
    language's starter template, whatever it was; nothing else changes.
   */
  function ChangeLanguage(st: Store, sessionId: string, language: Language): (r: Step<Result<Session>>)
    ensures sessionId !in st.sessions <==> r.result == Err(SessionNotFound)
    ensures sessionId !in st.sessions ==> r.store == st && r.deliveries == []
    ensures sessionId in st.sessions ==>
      var after := r.result.value;
      && r.result.Ok?
      && after.language == language
      && after.code == Config(language).defaultCode
      && after == st.sessions[sessionId].(language := after.language, code := after.code)
      && r.store == Put(st, sessionId, after)
      && NotifiesListeners(r.deliveries, st, sessionId, after)
  {
    if sessionId !in st.sessions then Step(st, Err(SessionNotFound), [])
    else
      var before := st.sessions[sessionId];
      var after := before.(language := language, code := Config(language).defaultCode);
      var st' := Put(st, sessionId, after);
      Step(st', Ok(after), Notify(st', sessionId, after))
  }

  /** The text one console call contributes to the output. */
  function ConsoleLine(c: ConsoleCall): (r: string)
    ensures |r| >= |c.text| && r[|r| - |c.text|..] == c.text
    ensures c.Log? <==> |r| == |c.text|
    ensures c.ConsoleError? ==> r[..|r| - |c.text|] == "Error: "
    ensures c.Warn? ==> r[..|r| - |c.text|] == "Warning: "
  {
    match c
    case Log(t) => t
    case ConsoleError(t) => "Error: " + t
    case Warn(t) => "Warning: " + t
  }

  /** The output lines of a completed run, one per console call, in call order. */
  function ConsoleLines(calls: seq<ConsoleCall>): (lines: seq<string>)
    ensures |lines| == |calls|
    ensures forall i :: 0 <= i < |calls| ==> lines[i] == ConsoleLine(calls[i])
  {
    seq(|calls|, i requires 0 <= i < |calls| => ConsoleLine(calls[i]))
  }

  /**
    The result of running a JavaScript session: the console lines joined
    by line feeds ("No output" when that is empty) on completion, or the
    thrown error's message ("Unknown error" for a non-`Error` value).
   */
  function JsResult(outcome: JsOutcome, elapsed: real): (r: ExecutionResult)
    ensures r.success <==> outcome.Completed?
    ensures r.executionTime == elapsed
    ensures outcome.Completed? ==> r.error == None && |r.output| > 0
    ensures outcome.Completed? && outcome.calls == [] ==> r.output == "No output"
    ensures outcome.Threw? ==> r.output == "" && r.error.Some?
    ensures outcome.Threw? && outcome.message.Some? ==> r.error == outcome.message
    ensures outcome.Threw? && outcome.message.None? ==> r.error == Some("Unknown error")
  {
    match outcome
    case Completed(calls) =>
      var joined := Join(ConsoleLines(calls), "\n");
      ExecutionResult(true, if joined == "" then "No output" else joined, None, elapsed)
    case Threw(message) =>
      ExecutionResult(false, "", Some(if message.Some? then message.value else "Unknown error"), elapsed)
  }

  /** A script that logged `text` (and completed) shows that text in its output. */
  lemma LoggedTextAppearsInOutput(calls: seq<ConsoleCall>, i: nat, elapsed: real)
    requires i < |calls| && calls[i].Log?
    ensures Contains(JsResult(Completed(calls), elapsed).output, calls[i].text)
  {
    var out := JsResult(Completed(calls), elapsed).output;
    if calls[i].text == "" {
      assert OccursAt(out, calls[i].text, 0);
    } else {
      var lines := ConsoleLines(calls);
      assert lines[i] == calls[i].text;
      JoinContainsParts(lines, "\n", i);
      var k :| OccursAt(Join(lines, "\n"), lines[i], k);
      assert |Join(lines, "\n")| > 0;
    }
  }

  /**
    Every console line of a completed run, whatever its kind and with its
    "Error: " or "Warning: " prefix, appears in the output.
   */
  lemma EveryLineAppears(calls: seq<ConsoleCall>, i: nat, elapsed: real)
    requires i < |calls|
    ensures Contains(JsResult(Completed(calls), elapsed).output, ConsoleLine(calls[i]))
  {
    var out := JsResult(Completed(calls), elapsed).output;
    var lines := ConsoleLines(calls);
    if lines[i] == "" {
      assert OccursAt(out, lines[i], 0);
    } else {
      JoinContainsParts(lines, "\n", i);
      var k :| OccursAt(Join(lines, "\n"), lines[i], k);
      assert |Join(lines, "\n")| > 0;
    }
  }

  /**
    A completed run falls back to "No output" when its joined lines are
    empty, which happens exactly when it made no console call or a single
    `console.log` of empty text.
   */
  lemma NoOutputFallback(calls: seq<ConsoleCall>, elapsed: real)
    ensures Join(ConsoleLines(calls), "\n") == "" <==> |calls| == 0 || calls == [Log("")]
    ensures |calls| == 0 || calls == [Log("")] ==> JsResult(Completed(calls), elapsed).output == "No output"
  {
    var lines := ConsoleLines(calls);
    JoinEmpty(lines, "\n");
    if |calls| == 1 {
      assert lines[0] == "" <==> calls[0] == Log("") by {
        var c := calls[0];
        if lines[0] == "" {
          assert |ConsoleLine(c)| == |c.text|;
          assert c.text == "";
        }
      }
      assert calls == [Log("")] <==> calls[0] == Log("");
    }
  }

  /** The canned output of a non-JavaScript run, naming the language by its label. */
  function MockOutput(labelText: string): (out: string)
    ensures Contains(out, "Mock execution") && Contains(out, labelText)
  {
    var prefix := "[Mock execution for ";
    var out := prefix + labelText + "]\nHello, World!";
    assert OccursAt(out, "Mock execution", 1) by {
      assert out[1..15] == prefix[1..15];
    }
    assert OccursAt(out, labelText, |prefix|) by {
      assert out[|prefix|..|prefix| + |labelText|] == labelText;
    }
    out
  }

  /** The canned result of every language other than JavaScript. */
  function MockResult(language: Language, elapsed: real): (r: ExecutionResult)
    ensures r.success && r.error == None && r.executionTime == elapsed
    ensures Contains(r.output, "Mock execution") && Contains(r.output, Config(language).labelText)
  {
    ExecutionResult(true, MockOutput(Config(language).labelText), None, elapsed)
  }

  /**
    `executeCode`: runs the session's code (JavaScript through `run`,
    every other language through the canned result), stores the result
    as the session's output in place of any earlier one, and notifies the
    listeners whether the run succeeded or not.
   */
  function ExecuteCode(st: Store, sessionId: string, run: JsOutcome, elapsed: real): (r: Step<Result<ExecutionResult>>)
    ensures sessionId !in st.sessions <==> r.result == Err(SessionNotFound)
    ensures sessionId !in st.sessions ==> r.store == st && r.deliveries == []
    ensures sessionId in st.sessions ==>
      var before := st.sessions[sessionId];
      var after := before.(output := Some(r.result.value));
      && r.result.Ok?
      && (before.language == JavaScript ==> r.result.value == JsResult(run, elapsed))
      && (before.language != JavaScript ==> r.result.value == MockResult(before.language, elapsed))
      && r.store == Put(st, sessionId, after)
      && NotifiesListeners(r.deliveries, st, sessionId, after)
  {
    if sessionId !in st.sessions then Step(st, Err(SessionNotFound), [])
    else
      var before := st.sessions[sessionId];
      var result := if before.language == JavaScript then JsResult(run, elapsed) else MockResult(before.language, elapsed);
      var after := before.(output := Some(result));
      var st' := Put(st, sessionId, after);
      Step(st', Ok(result), Notify(st', sessionId, after))
  }

  /** `Array.prototype.find` on participant ids: the first index whose id is `participantId`. */
  function FindParticipant(ps: seq<Participant>, participantId: string): (r: Option<nat>)
    ensures r.Some? ==> r.value < |ps| && ps[r.value].id == participantId
                        && forall j :: 0 <= j < r.value ==> ps[j].id != participantId
    ensures r.None? ==> forall j :: 0 <= j < |ps| ==> ps[j].id != participantId
    decreases |ps|
  {
    if |ps| == 0 then None
    else if ps[0].id == participantId then Some(0)
    else match FindParticipant(ps[1..], participantId)
      case None => None
      case Some(i) => Some(i + 1)
  }

  /** The participants after the first one with `participantId` goes offline. */
  function MarkOffline(ps: seq<Participant>, participantId: string): (r: seq<Participant>)
    ensures |r| == |ps|
    ensures forall j :: 0 <= j < |ps| ==>
      r[j] == (if FindParticipant(ps, participantId) == Some(j) then ps[j].(isOnline := false) else ps[j])
  {
    match FindParticipant(ps, participantId)
    case None => ps
    case Some(i) => ps[i := ps[i].(isOnline := false)]
  }

  /**
    `leaveSession`: the first participant with the given id goes offline
    and no other participant changes; an unknown participant leaves the
    list as it was but the listeners are still notified; an unknown
    session is a silent no-op.
   */
  function LeaveSession(st: Store, sessionId: string, participantId: string): (r: Step<()>)
    ensures sessionId !in st.sessions ==> r.store == st && r.deliveries == []
    ensures sessionId in st.sessions ==> sessionId in r.store.sessions
    ensures sessionId in st.sessions ==>
      var before := st.sessions[sessionId];
      var after := r.store.sessions[sessionId];
      && after == before.(participants := after.participants)
      && after.participants == MarkOffline(before.participants, participantId)
      && |after.participants| == |before.participants|
      && (forall j :: 0 <= j < |before.participants| && before.participants[j].id != participantId ==>
            after.participants[j] == before.participants[j])
      && (forall j :: 0 <= j < |before.participants| && before.participants[j].id == participantId ==>
            after.participants[j].id == participantId
            && after.participants[j].name == before.participants[j].name
            && after.participants[j].isHost == before.participants[j].isHost)
      && ((exists j :: 0 <= j < |before.participants| && before.participants[j].id == participantId) ==>
            exists j :: 0 <= j < |after.participants| && after.participants[j].id == participantId
                        && !after.participants[j].isOnline)
      && ((forall j :: 0 <= j < |before.participants| ==> before.participants[j].id != participantId) ==>
            after == before)
      && r.store == Put(st, sessionId, after)
      && NotifiesListeners(r.deliveries, st, sessionId, after)
  {
    if sessionId !in st.sessions then Step(st, (), [])
    else
      var before := st.sessions[sessionId];
      var after := before.(participants := MarkOffline(before.participants, participantId));
      var st' := Put(st, sessionId, after);
      Step(st', (), Notify(st', sessionId, after))
  }

  /**
    `subscribe`: registers `callback` for `sessionId`; registering a
    callback that is already there changes nothing.
   */
  function Subscribe(st: Store, sessionId: string, callback: CallbackId): (r: Store)
    ensures r.sessions == st.sessions
    ensures sessionId in r.subscribers
    ensures callback in Listeners(st, sessionId) ==> Listeners(r, sessionId) == Listeners(st, sessionId)
    ensures callback !in Listeners(st, sessionId) ==> Listeners(r, sessionId) == Listeners(st, sessionId) + [callback]
    ensures forall k :: k != sessionId ==> Listeners(r, k) == Listeners(st, k)
  {
    var current := Listeners(st, sessionId);
    var updated := if callback in current then current else current + [callback];
    Store(st.sessions, st.subscribers[sessionId := updated])
  }

  /** Every callback except `callback`, in the same order. */
  function Without(ls: seq<CallbackId>, callback: CallbackId): (r: seq<CallbackId>)
    ensures forall c :: c in r <==> c in ls && c != callback
    ensures callback !in ls ==> r == ls
    ensures NoDup(ls) ==> NoDup(r)
    ensures NoDup(ls) && callback in ls ==>
      exists i :: 0 <= i < |ls| && ls[i] == callback && r == ls[..i] + ls[i + 1..]
  {
    var p := (c: CallbackId) => c != callback;
    var r := Filter(ls, p);
    assert callback !in ls ==> r == ls by {
      if callback !in ls {
        assert forall j :: 0 <= j < |ls| ==> ls[j] in ls;
        FilterKeepsAll(ls, p);
      }
    }
    assert NoDup(ls) ==> NoDup(r) by {
      if NoDup(ls) {
        FilterNoDup(ls, p);
      }
    }
    assert NoDup(ls) && callback in ls ==>
      exists i :: 0 <= i < |ls| && ls[i] == callback && r == ls[..i] + ls[i + 1..] by {
      if NoDup(ls) && callback in ls {
        var i :| 0 <= i < |ls| && ls[i] == callback;
        FilterRemoveAt(ls, i, p);
      }
    }
    r
  }

  /**
    The function `subscribe` returns: removes exactly `callback` from the
    session's registry and nothing else.
   */
  function Unsubscribe(st: Store, sessionId: string, callback: CallbackId): (r: Store)
    ensures r.sessions == st.sessions && r.subscribers.Keys == st.subscribers.Keys
    ensures forall c :: c in Listeners(r, sessionId) <==> c in Listeners(st, sessionId) && c != callback
    ensures callback !in Listeners(st, sessionId) ==> Listeners(r, sessionId) == Listeners(st, sessionId)
    ensures NoDup(Listeners(st, sessionId)) ==> NoDup(Listeners(r, sessionId))
    ensures var ls := Listeners(st, sessionId);
            NoDup(ls) && callback in ls ==>
              exists i :: 0 <= i < |ls| && ls[i] == callback && Listeners(r, sessionId) == ls[..i] + ls[i + 1..]
    ensures forall k :: k != sessionId ==> Listeners(r, k) == Listeners(st, k)
  {
    if sessionId in st.subscribers then
      Store(st.sessions, st.subscribers[sessionId := Without(st.subscribers[sessionId], callback)])
    else st
  }
}

=== FILE: create_session_dialog.dfy ===
/**
  The "Create Interview Session" dialog: its initial form, the guard in
  its submit handler, and the state of its submit button.
 */
module CreateSessionDialog {
  import opened Strings
  import opened Interview

  /** The dialog's form state. */
  datatype Form = Form(title: string, language: Language, hostName: string)

  /** What the dialog hands to its `onSubmit` callback. */
  datatype Request = Request(title: string, language: Language, hostName: string)

  /** The form when the dialog first renders. */
  const InitialForm: Form := Form("Coding Interview", JavaScript, "")

  /**
    `handleSubmit`: submits the trimmed title and host name, with the
    language as chosen, only when neither trims to nothing.
   */
  function HandleSubmit(f: Form): (r: Option<Request>)
    ensures r.Some? <==> !AllWhitespace(f.title) && !AllWhitespace(f.hostName)
    ensures r.Some? ==> r.value.title == Trim(f.title) && r.value.hostName == Trim(f.hostName)
    ensures r.Some? ==> r.value.language == f.language
    ensures r.Some? ==> |r.value.title| > 0 && |r.value.hostName| > 0
  {
    var title := Trim(f.title);
    var hostName := Trim(f.hostName);
    if title != "" && hostName != "" then Some(Request(title, f.language, hostName)) else None
  }

  /** The submit button is disabled while loading or while either field is blank. */
  function SubmitDisabled(f: Form, isLoading: bool): (d: bool)
    ensures d <==> isLoading || AllWhitespace(f.title) || AllWhitespace(f.hostName)
  {
    isLoading || Trim(f.title) == "" || Trim(f.hostName) == ""
  }

  /** The submit button's caption. */
  function SubmitLabel(isLoading: bool): (s: string)
    ensures s == "Creating..." <==> isLoading
  {
    if isLoading then "Creating..." else "Create Session"
  }

  /** When not loading, the button is enabled exactly when pressing it submits. */
  lemma EnabledIffSubmits(f: Form)
    ensures !SubmitDisabled(f, false) <==> HandleSubmit(f).Some?
  {
  }

  /** The dialog opens with a blank host name, so it cannot be submitted yet. */
  lemma InitialFormCannotSubmit(isLoading: bool)
    ensures InitialForm.title == "Coding Interview" && InitialForm.language == JavaScript && InitialForm.hostName == ""
    ensures SubmitDisabled(InitialForm, isLoading) && HandleSubmit(InitialForm) == None
  {
  }

  /** Whitespace typed around either field never changes what is submitted. */
  lemma PaddingIgnored(f: Form, l1: string, r1: string, l2: string, r2: string)
    requires AllWhitespace(l1) && AllWhitespace(r1) && AllWhitespace(l2) && AllWhitespace(r2)
    ensures HandleSubmit(Form(l1 + f.title + r1, f.language, l2 + f.hostName + r2)) == HandleSubmit(f)
  {
    TrimIgnoresPadding(l1, f.title, r1);
    TrimIgnoresPadding(l2, f.hostName, r2);
  }

  /** Submitting what was submitted submits it unchanged. */
  lemma ResubmitIsStable(f: Form)
    requires HandleSubmit(f).Some?
    ensures var q := HandleSubmit(f).value;
            HandleSubmit(Form(q.title, q.language, q.hostName)) == Some(q)
  {
    TrimIdempotent(f.title);
    TrimIdempotent(f.hostName);
  }
}

=== FILE: interview.dfy ===
/**
  The shared vocabulary of the interview application: participants,
  sessions, execution results, code-change requests and the per-language
  configuration table (label, file extension, starter template).
  Timestamps (`createdAt`, `joinedAt`, a change's `timestamp`) are not
  part of this model.
 */
module Interview {
  import opened Seqs
  import opened Strings

  /** A value that may be absent: TypeScript's `T | null` and optional fields. */
  datatype Option<T> = None | Some(value: T)

  /** The five languages a session can be written in. */
  datatype Language = JavaScript | TypeScript | Python | Java | Cpp

  /** Every language, in the order the configuration table lists them. */
  const Languages: seq<Language> := [JavaScript, TypeScript, Python, Java, Cpp]

  /** One entry of the language table (`labelText` is the display label). */
  datatype LanguageConfig = LanguageConfig(labelText: string, extension: string, defaultCode: string)

  /** One user attached to a session. */
  datatype Participant = Participant(id: string, name: string, isOnline: bool, isHost: bool)

  /** The outcome of one "run code" request; `executionTime` is in milliseconds. */
  datatype ExecutionResult = ExecutionResult(success: bool, output: string, error: Option<string>, executionTime: real)

  /** The shared state of one interview room. */
  datatype Session = Session(
    id: string,
    title: string,
    language: Language,
    code: string,
    participants: seq<Participant>,
    output: Option<ExecutionResult>)

  /** A request to overwrite a session's code. */
  datatype CodeChange = CodeChange(sessionId: string, participantId: string, code: string)

  function IsOnline(p: Participant): bool { p.isOnline }

  function IsHost(p: Participant): bool { p.isHost }

  /** How many of `ps` are hosts. */
  function HostCount(ps: seq<Participant>): nat
  {
    |Filter(ps, IsHost)|
  }

  /** The starter template of each language, line by line (joined with line feeds). */
  function TemplateLines(lang: Language): (lines: seq<string>)
    ensures |lines| > 0 && |lines[0]| > 0
  {
    match lang
    case JavaScript => [
      "// Welcome to the coding interview!",
      "// Write your solution below",
      "",
      "function solution(input) {",
      "  // Your code here",
      "  return input;",
      "}",
      "",
      "// Test your solution",
      "console.log(solution(\"Hello, World!\"));"]
    case TypeScript => [
      "// Welcome to the coding interview!",
      "// Write your solution below",
      "",
      "function solution(input: string): string {",
      "  // Your code here",
      "  return input;",
      "}",
      "",
      "// Test your solution",
      "console.log(solution(\"Hello, World!\"));"]
    case Python => [
      "# Welcome to the coding interview!",
      "# Write your solution below",
      "",
      "def solution(input):",
      "    # Your code here",
      "    return input",
      "",
      "# Test your solution",
      "print(solution(\"Hello, World!\"))"]
    case Java => [
      "// Welcome to the coding interview!",
      "// Write your solution below",
      "",
      "public class Solution {",
      "    public static String solution(String input) {",
      "        // Your code here",
      "        return input;",
      "    }",
      "    ",
      "    public static void main(String[] args) {",
      "        System.out.println(solution(\"Hello, World!\"));",
      "    }",
      "}"]
    case Cpp => [
      "// Welcome to the coding interview!",
      "// Write your solution below",
      "",
      "#include <iostream>",
      "#include <string>",
      "using namespace std;",
      "",
      "string solution(string input) {",
      "    // Your code here",
      "    return input;",
      "}",
      "",
      "int main() {",
      "    cout << solution(\"Hello, World!\") << endl;",
      "    return 0;",
      "}"]
  }

  /** The language table: total over the languages, every entry fully filled in. */
  function Config(lang: Language): (c: LanguageConfig)
    ensures |c.labelText| > 0 && |c.extension| > 0 && |c.defaultCode| > 0
  {
    var code := Join(TemplateLines(lang), "\n");
    match lang
    case JavaScript => LanguageConfig("JavaScript", "js", code)
    case TypeScript => LanguageConfig("TypeScript", "ts", code)
    case Python => LanguageConfig("Python", "py", code)
    case Java => LanguageConfig("Java", "java", code)
    case Cpp => LanguageConfig("C++", "cpp", code)
  }

  /** The language list has exactly five distinct members and misses none. */
  lemma LanguagesComplete()
    ensures |Languages| == 5 && NoDup(Languages)
    ensures forall lang: Language :: lang in Languages
  {
    forall i, j | 0 <= i < j < |Languages| ensures Languages[i] != Languages[j] {
      assert Languages[i].JavaScript? ==> i == 0;
    }
    forall lang: Language ensures lang in Languages {
      match lang
      case JavaScript => assert Languages[0] == lang;
      case TypeScript => assert Languages[1] == lang;
      case Python => assert Languages[2] == lang;
      case Java => assert Languages[3] == lang;
      case Cpp => assert Languages[4] == lang;
    }
  }

  /** The display labels of the five languages. */
  lemma ConfigLabels()
    ensures Config(JavaScript).labelText == "JavaScript"
    ensures Config(TypeScript).labelText == "TypeScript"
    ensures Config(Python).labelText == "Python"
    ensures Config(Java).labelText == "Java"
    ensures Config(Cpp).labelText == "C++"
  {
  }

  /** The file extensions of the five languages. */
  lemma ConfigExtensions()
    ensures Config(JavaScript).extension == "js"
    ensures Config(TypeScript).extension == "ts"
    ensures Config(Python).extension == "py"
    ensures Config(Java).extension == "java"
    ensures Config(Cpp).extension == "cpp"
  {
  }

  /** No two languages share a label or an extension. */
  lemma ConfigDistinct(a: Language, b: Language)
    requires a != b
    ensures Config(a).labelText != Config(b).labelText
    ensures Config(a).extension != Config(b).extension
  {
  }

  /** A word found on one line of a template is found in the template. */
  lemma TemplateLineContains(lang: Language, i: nat, word: string, k: nat)
    requires i < |TemplateLines(lang)| && OccursAt(TemplateLines(lang)[i], word, k)
    ensures Contains(Config(lang).defaultCode, word)
  {
    var lines := TemplateLines(lang);
    JoinContainsParts(lines, "\n", i);
    ContainsTransitive(Config(lang).defaultCode, lines[i], word);
  }

  /** "solution" sits at index 14 of the C-style second template line. */
  lemma SlashLineMentionsSolution(line: string)
    requires line == "// Write your solution below"
    ensures OccursAt(line, "solution", 14)
  {
    var prefix, word := "// Write your ", "solution";
    assert line == prefix + word + " below";
    assert line[|prefix|..|prefix| + |word|] == word;
  }

  /** "solution" sits at index 13 of the Python second template line. */
  lemma HashLineMentionsSolution(line: string)
    requires line == "# Write your solution below"
    ensures OccursAt(line, "solution", 13)
  {
    var prefix, word := "# Write your ", "solution";
    assert line == prefix + word + " below";
    assert line[|prefix|..|prefix| + |word|] == word;
  }

  /** The second line of every template reads "<comment> Write your solution below". */
  lemma SecondLineMentionsSolution(lang: Language)
    ensures OccursAt(TemplateLines(lang)[1], "solution", if lang == Python then 13 else 14)
  {
    match lang
    case JavaScript => SlashLineMentionsSolution(TemplateLines(lang)[1]);
    case TypeScript => SlashLineMentionsSolution(TemplateLines(lang)[1]);
    case Python => HashLineMentionsSolution(TemplateLines(lang)[1]);
    case Java => SlashLineMentionsSolution(TemplateLines(lang)[1]);
    case Cpp => SlashLineMentionsSolution(TemplateLines(lang)[1]);
  }

  /** Every starter template mentions "solution", ignoring case. */
  lemma DefaultCodeMentionsSolution(lang: Language)
    ensures ContainsIgnoreCase(Config(lang).defaultCode, "solution")
  {
    // the second line of every template reads "<comment> Write your solution below"
    var k := if lang == Python then 13 else 14;
    SecondLineMentionsSolution(lang);
    TemplateLineContains(lang, 1, "solution", k);
    ContainsThenContainsIgnoreCase(Config(lang).defaultCode, "solution");
  }

  /** The Python template defines `solution` and prints its result. */
  lemma PythonDefaultCode()
    ensures Contains(Config(Python).defaultCode, "def solution")
    ensures Contains(Config(Python).defaultCode, "print")
  {
    var lines := TemplateLines(Python);
    assert lines[3] == "def solution(input):";
    assert lines[3][..12] == "def solution";
    TemplateLineContains(Python, 3, "def solution", 0);
    assert lines[8][..5] == "print";
    TemplateLineContains(Python, 8, "print", 0);
  }
}

=== FILE: join_session_dialog.dfy ===
/**
  The "Join Interview Session" dialog: the prefilled session id, the
  guard in its submit handler, and the state of its submit button.
 */
module JoinSessionDialog {
  import opened Strings
  import opened Interview

  /** The dialog's form state. */
  datatype Form = Form(sessionId: string, participantName: string)

  /** What the dialog hands to its `onSubmit` callback, in argument order. */
  datatype Request = Request(sessionId: string, participantName: string)

  /** The form when the dialog first renders: the given session id (blank by default) and no name. */
  function InitialForm(initialSessionId: Option<string>): (f: Form)
    ensures initialSessionId.Some? ==> f.sessionId == initialSessionId.value
    ensures initialSessionId.None? ==> f.sessionId == ""
    ensures f.participantName == ""
  {
    Form(if initialSessionId.Some? then initialSessionId.value else "", "")
  }

  /**
    `handleSubmit`: submits the trimmed session id and name, in that
    order, only when neither trims to nothing.
   */
  function HandleSubmit(f: Form): (r: Option<Request>)
    ensures r.Some? <==> !AllWhitespace(f.sessionId) && !AllWhitespace(f.participantName)
    ensures r.Some? ==> r.value.sessionId == Trim(f.sessionId) && r.value.participantName == Trim(f.participantName)
    ensures r.Some? ==> |r.value.sessionId| > 0 && |r.value.participantName| > 0
  {
    var sessionId := Trim(f.sessionId);
    var name := Trim(f.participantName);
    if sessionId != "" && name != "" then Some(Request(sessionId, name)) else None
  }

  /** The submit button is disabled while loading or while either field is blank. */
  function SubmitDisabled(f: Form, isLoading: bool): (d: bool)
    ensures d <==> isLoading || AllWhitespace(f.sessionId) || AllWhitespace(f.participantName)
  {
    isLoading || Trim(f.sessionId) == "" || Trim(f.participantName) == ""
  }

  /** The submit button's caption. */
  function SubmitLabel(isLoading: bool): (s: string)
    ensures s == "Joining..." <==> isLoading
  {
    if isLoading then "Joining..." else "Join Session"
  }

  /** When not loading, the button is enabled exactly when pressing it submits. */
  lemma EnabledIffSubmits(f: Form)
    ensures !SubmitDisabled(f, false) <==> HandleSubmit(f).Some?
  {
  }

  /** The dialog always opens unsubmittable, since the name starts blank, whatever id is prefilled. */
  lemma InitialFormCannotSubmit(initialSessionId: Option<string>, isLoading: bool)
    ensures SubmitDisabled(InitialForm(initialSessionId), isLoading)
    ensures HandleSubmit(InitialForm(initialSessionId)) == None
  {
  }

  /** Whitespace typed around either field never changes what is submitted. */
  lemma PaddingIgnored(f: Form, l1: string, r1: string, l2: string, r2: string)
    requires AllWhitespace(l1) && AllWhitespace(r1) && AllWhitespace(l2) && AllWhitespace(r2)
    ensures HandleSubmit(Form(l1 + f.sessionId + r1, l2 + f.participantName + r2)) == HandleSubmit(f)
  {
    TrimIgnoresPadding(l1, f.sessionId, r1);
    TrimIgnoresPadding(l2, f.participantName, r2);
  }
}

=== FILE: lifecycle.dfy ===
/**
  The store over its whole lifetime: every operation as one step of a
  state machine, the invariant every step keeps (each session has exactly
  one host, its first participant; registries hold no duplicates), and
  the fact that sessions and participants are never removed.
 */
module Lifecycle {
  import opened Seqs
  import opened Interview
  import opened Api
  import StoreProperties

  /** One call into the store, with the ids and outcomes the environment supplies. */
  datatype Op =
    | Create(title: string, language: Language, hostName: string, sessionId: string, hostId: string)
    | Join(sessionId: string, participantName: string, participantId: string)
    | Get(sessionId: string)
    | Update(change: CodeChange)
    | SetLanguage(sessionId: string, language: Language)
    | Execute(sessionId: string, run: JsOutcome, elapsed: real)
    | Leave(sessionId: string, participantId: string)
    | Register(sessionId: string, callback: CallbackId)
    | Unregister(sessionId: string, callback: CallbackId)

  /** The store after `op`. */
  function Apply(st: Store, op: Op): Store
  {
    match op
    case Create(title, language, hostName, sessionId, hostId) =>
      CreateSession(st, title, language, hostName, sessionId, hostId).store
    case Join(sessionId, name, participantId) => JoinSession(st, sessionId, name, participantId).store
    case Get(sessionId) => GetSession(st, sessionId).store
    case Update(change) => UpdateCode(st, change).store
    case SetLanguage(sessionId, language) => ChangeLanguage(st, sessionId, language).store
    case Execute(sessionId, run, elapsed) => ExecuteCode(st, sessionId, run, elapsed).store
    case Leave(sessionId, participantId) => LeaveSession(st, sessionId, participantId).store
    case Register(sessionId, callback) => Subscribe(st, sessionId, callback)
    case Unregister(sessionId, callback) => Unsubscribe(st, sessionId, callback)
  }

  /** The id generator's promise: a created session's id is not in use yet. */
  predicate FreshFor(st: Store, op: Op)
  {
    op.Create? ==> op.sessionId !in st.sessions
  }

  /** The store after the operations `ops`, in order. */
  function Run(st: Store, ops: seq<Op>): Store
    decreases |ops|
  {
    if |ops| == 0 then st else Run(Apply(st, ops[0]), ops[1..])
  }

  /** Every creation along `ops` gets an id unused at that point. */
  predicate FreshAlong(st: Store, ops: seq<Op>)
    decreases |ops|
  {
    |ops| == 0 || (FreshFor(st, ops[0]) && FreshAlong(Apply(st, ops[0]), ops[1..]))
  }

  /** A stored session: keyed by its own id, exactly one host, and that host listed first. */
  ghost predicate WellFormed(key: string, s: Session)
  {
    s.id == key && |s.participants| > 0 && s.participants[0].isHost && HostCount(s.participants) == 1
  }

  /** The store invariant. */
  ghost predicate Valid(st: Store)
  {
    && (forall k :: k in st.sessions ==> WellFormed(k, st.sessions[k]))
    && (forall k :: k in st.subscribers ==> NoDup(st.subscribers[k]))
  }

  /** `b` is `a` later in life: same id, and every participant of `a` still there with the same id, name and role. */
  ghost predicate Grows(a: Session, b: Session)
  {
    && b.id == a.id
    && |a.participants| <= |b.participants|
    && forall i :: 0 <= i < |a.participants| ==>
         && b.participants[i].id == a.participants[i].id
         && b.participants[i].name == a.participants[i].name
         && b.participants[i].isHost == a.participants[i].isHost
  }

  /** Adding a participant adds a host exactly when the newcomer is one. */
  lemma HostCountAppend(ps: seq<Participant>, p: Participant)
    ensures HostCount(ps + [p]) == HostCount(ps) + (if p.isHost then 1 else 0)
  {
    FilterAppend(ps, [p], IsHost);
  }

  /** Going offline never changes who is host. */
  lemma HostCountMarkOffline(ps: seq<Participant>, participantId: string)
    ensures HostCount(MarkOffline(ps, participantId)) == HostCount(ps)
  {
    match FindParticipant(ps, participantId)
    case None =>
    case Some(i) =>
      FilterUpdateLength(ps, i, ps[i].(isOnline := false), IsHost);
  }

  /** A new session is well formed. */
  lemma CreateWellFormed(st: Store, title: string, language: Language, hostName: string, sessionId: string, hostId: string)
    ensures WellFormed(sessionId, CreateSession(st, title, language, hostName, sessionId, hostId).result)
  {
    var ps := CreateSession(st, title, language, hostName, sessionId, hostId).result.participants;
    assert Filter(ps, IsHost) == [ps[0]];
  }

  /** Storing a well-formed session under its key keeps the invariant. */
  lemma PutPreservesValid(st: Store, sessionId: string, s: Session)
    requires Valid(st) && WellFormed(sessionId, s)
    ensures Valid(Put(st, sessionId, s))
  {
  }

  /** A join keeps the session well formed: the newcomer is not a host. */
  lemma JoinPreservesValid(st: Store, sessionId: string, name: string, participantId: string)
    requires Valid(st)
    ensures Valid(JoinSession(st, sessionId, name, participantId).store)
  {
    if sessionId in st.sessions {
      var before := st.sessions[sessionId];
      var joiner := Participant(participantId, name, true, false);
      var after := JoinSession(st, sessionId, name, participantId).result.value.session;
      HostCountAppend(before.participants, joiner);
      assert after.participants == before.participants + [joiner];
      assert after.participants[0] == before.participants[0];
      PutPreservesValid(st, sessionId, after);
    }
  }

  /** Leaving keeps the session well formed: going offline changes no one's role. */
  lemma LeavePreservesValid(st: Store, sessionId: string, participantId: string)
    requires Valid(st)
    ensures Valid(LeaveSession(st, sessionId, participantId).store)
  {
    if sessionId in st.sessions {
      var before := st.sessions[sessionId];
      var after := before.(participants := MarkOffline(before.participants, participantId));
      assert LeaveSession(st, sessionId, participantId).store == Put(st, sessionId, after);
      HostCountMarkOffline(before.participants, participantId);
      assert after.participants[0].isHost == before.participants[0].isHost;
      PutPreservesValid(st, sessionId, after);
    }
  }

  /** Every operation keeps the invariant, even a creation that overwrites an existing id. */
  lemma ApplyPreservesValid(st: Store, op: Op)
    requires Valid(st)
    ensures Valid(Apply(st, op))
  {
    match op
    case Create(title, language, hostName, sessionId, hostId) =>
      var r := CreateSession(st, title, language, hostName, sessionId, hostId);
      CreateWellFormed(st, title, language, hostName, sessionId, hostId);
      assert r.store == Put(st, sessionId, r.result);
      PutPreservesValid(st, sessionId, r.result);
    case Join(sessionId, name, participantId) =>
      JoinPreservesValid(st, sessionId, name, participantId);
    case Get(_) =>
    case Update(change) =>
      if change.sessionId in st.sessions {
        PutPreservesValid(st, change.sessionId, UpdateCode(st, change).result.value);
      }
    case SetLanguage(sessionId, language) =>
      if sessionId in st.sessions {
        PutPreservesValid(st, sessionId, ChangeLanguage(st, sessionId, language).result.value);
      }
    case Execute(sessionId, run, elapsed) =>
      if sessionId in st.sessions {
        var after := st.sessions[sessionId].(output := Some(ExecuteCode(st, sessionId, run, elapsed).result.value));
        assert ExecuteCode(st, sessionId, run, elapsed).store == Put(st, sessionId, after);
        PutPreservesValid(st, sessionId, after);
      }
    case Leave(sessionId, participantId) =>
      LeavePreservesValid(st, sessionId, participantId);
    case Register(sessionId, callback) =>
      StoreProperties.RegistryStaysDuplicateFree(st, sessionId, callback);
    case Unregister(sessionId, callback) =>
      StoreProperties.RegistryStaysDuplicateFree(st, sessionId, callback);
  }

  /** A join only appends: every earlier participant keeps its place. */
  lemma JoinGrows(st: Store, sessionId: string, name: string, participantId: string, k: string)
    requires k in st.sessions
    ensures var st' := JoinSession(st, sessionId, name, participantId).store;
            k in st'.sessions && Grows(st.sessions[k], st'.sessions[k])
  {
    if sessionId == k {
      var a := st.sessions[k];
      var b := JoinSession(st, sessionId, name, participantId).store.sessions[k];
      forall i | 0 <= i < |a.participants| ensures b.participants[i] == a.participants[i] {
        assert b.participants[..|a.participants|][i] == b.participants[i];
      }
    }
  }

  /** Leaving changes only an online flag. */
  lemma LeaveGrows(st: Store, sessionId: string, participantId: string, k: string)
    requires k in st.sessions
    ensures var st' := LeaveSession(st, sessionId, participantId).store;
            k in st'.sessions && Grows(st.sessions[k], st'.sessions[k])
  {
  }

  /** The operations that touch no participant list. */
  lemma OthersGrow(st: Store, op: Op, k: string)
    requires k in st.sessions && FreshFor(st, op) && !op.Join? && !op.Leave?
    ensures k in Apply(st, op).sessions && st.sessions[k].participants == Apply(st, op).sessions[k].participants
    ensures Apply(st, op).sessions[k].id == st.sessions[k].id
  {
    match op
    case Create(_, _, _, sessionId, _) => assert sessionId != k;
    case Get(_) =>
    case Update(change) =>
    case SetLanguage(_, _) =>
    case Execute(_, _, _) =>
    case Register(_, _) =>
    case Unregister(_, _) =>
  }

  /** No operation removes a session or a participant, or changes anyone's id, name or role. */
  lemma ApplyOnlyGrows(st: Store, op: Op)
    requires FreshFor(st, op)
    ensures forall k :: k in st.sessions ==> k in Apply(st, op).sessions && Grows(st.sessions[k], Apply(st, op).sessions[k])
  {
    forall k | k in st.sessions
      ensures k in Apply(st, op).sessions && Grows(st.sessions[k], Apply(st, op).sessions[k])
    {
      match op
      case Join(sessionId, name, participantId) => JoinGrows(st, sessionId, name, participantId, k);
      case Leave(sessionId, participantId) => LeaveGrows(st, sessionId, participantId, k);
      case _ => OthersGrow(st, op, k);
    }
  }

  /** Growing is transitive. */
  lemma GrowsTransitive(a: Session, b: Session, c: Session)
    requires Grows(a, b) && Grows(b, c)
    ensures Grows(a, c)
  {
  }

  /** Every run keeps the invariant. */
  lemma {:induction false} RunPreservesValid(st: Store, ops: seq<Op>)
    requires Valid(st)
    ensures Valid(Run(st, ops))
    decreases |ops|
  {
    if |ops| > 0 {
      ApplyPreservesValid(st, ops[0]);
      RunPreservesValid(Apply(st, ops[0]), ops[1..]);
    }
  }

  /** Over any run with fresh creation ids, sessions and participants are never removed. */
  lemma {:induction false} RunOnlyGrows(st: Store, ops: seq<Op>)
    requires FreshAlong(st, ops)
    ensures forall k :: k in st.sessions ==> k in Run(st, ops).sessions && Grows(st.sessions[k], Run(st, ops).sessions[k])
    decreases |ops|
  {
    if |ops| > 0 {
      var mid := Apply(st, ops[0]);
      ApplyOnlyGrows(st, ops[0]);
      RunOnlyGrows(mid, ops[1..]);
      forall k | k in st.sessions
        ensures k in Run(st, ops).sessions && Grows(st.sessions[k], Run(st, ops).sessions[k])
      {
        GrowsTransitive(st.sessions[k], mid.sessions[k], Run(mid, ops[1..]).sessions[k]);
      }
    }
  }

  /** Every store the application can reach from its empty start satisfies the invariant. */
  lemma ReachableStoresValid(ops: seq<Op>)
    ensures Valid(Run(EmptyStore, ops))
  {
    RunPreservesValid(EmptyStore, ops);
  }
}

=== FILE: output_panel.dfy ===
/**
  The output panel: which text it shows for the current run state, and
  the status badge in its header.
 */
module OutputPanel {
  import opened Strings
  import opened Interview
  import opened Api

  /** The body of the panel. */
  datatype Pane =
    | Running                  // "Running code..."
    | ErrorText(text: string)  // the error, in the destructive colour
    | OutputText(text: string) // the program output
    | Placeholder              // the invitation to click "Run Code"

  /** The icon of the header badge. */
  datatype StatusIcon = SuccessIcon | FailureIcon

  /** An error message counts only when it is a non-empty string (JavaScript truthiness). */
  predicate HasErrorText(r: ExecutionResult)
  {
    r.error.Some? && r.error.value != ""
  }

  /** The pane shown for `result` while `isExecuting` is or is not set. */
  function SelectPane(result: Option<ExecutionResult>, isExecuting: bool): (p: Pane)
    ensures isExecuting <==> p == Running
    ensures p == Placeholder <==> !isExecuting && result.None?
    ensures p.ErrorText? <==> !isExecuting && result.Some? && HasErrorText(result.value)
    ensures p.ErrorText? ==> p.text == result.value.error.value
    ensures p.OutputText? ==> result.Some? && p.text == result.value.output
  {
    if isExecuting then Running
    else if result.None? then Placeholder
    else if HasErrorText(result.value) then ErrorText(result.value.error.value)
    else OutputText(result.value.output)
  }

  /** The header badge: present exactly when there is a result, its icon chosen by `success`. */
  function StatusBadge(result: Option<ExecutionResult>): (b: Option<StatusIcon>)
    ensures b.Some? <==> result.Some?
    ensures b == Some(SuccessIcon) <==> result.Some? && result.value.success
  {
    if result.None? then None
    else if result.value.success then Some(SuccessIcon) else Some(FailureIcon)
  }

  /** After a run of a non-JavaScript session, the panel shows the canned output naming the language. */
  lemma MockRunShowsLanguage(st: Store, sessionId: string, run: JsOutcome, elapsed: real)
    requires sessionId in st.sessions && st.sessions[sessionId].language != JavaScript
    ensures var s := ExecuteCode(st, sessionId, run, elapsed).store.sessions[sessionId];
            && SelectPane(s.output, false).OutputText?
            && Contains(SelectPane(s.output, false).text, Config(s.language).labelText)
            && StatusBadge(s.output) == Some(SuccessIcon)
  {
  }

  /** After a JavaScript run that threw an `Error` with a message, the panel shows that message. */
  lemma ThrownErrorIsShown(st: Store, sessionId: string, message: string, elapsed: real)
    requires sessionId in st.sessions && st.sessions[sessionId].language == JavaScript && message != ""
    ensures var s := ExecuteCode(st, sessionId, Threw(Some(message)), elapsed).store.sessions[sessionId];
            SelectPane(s.output, false) == ErrorText(message) && StatusBadge(s.output) == Some(FailureIcon)
  {
  }

  /**
    A JavaScript run that threw an `Error` with an empty message fails,
    yet the panel falls through to the (empty) output text.
   */
  lemma EmptyThrownMessageShowsEmptyOutput(st: Store, sessionId: string, elapsed: real)
    requires sessionId in st.sessions && st.sessions[sessionId].language == JavaScript
    ensures var s := ExecuteCode(st, sessionId, Threw(Some("")), elapsed).store.sessions[sessionId];
            SelectPane(s.output, false) == OutputText("") && StatusBadge(s.output) == Some(FailureIcon)
  {
  }
}

=== FILE: participant_list.dfy ===
/**
  The participant list in the interview header: the online count, up to
  five avatars of online participants, and a "+N" badge for the rest.
 */
module ParticipantList {
  import opened Seqs
  import opened Strings
  import opened Interview
  import opened Api

  /** At most this many avatars are drawn. */
  const MaxAvatars: nat := 5

  function Min(a: int, b: int): int
  {
    if a <= b then a else b
  }

  /** The online participants, in list order. */
  function OnlineParticipants(ps: seq<Participant>): (r: seq<Participant>)
    ensures forall p :: p in r <==> p in ps && p.isOnline
  {
    Filter(ps, IsOnline)
  }

  /** The online list is built in list order, one participant at a time. */
  lemma OnlineParticipantsInOrder(init: seq<Participant>, last: Participant)
    ensures OnlineParticipants([]) == []
    ensures OnlineParticipants(init + [last]) == OnlineParticipants(init) + (if last.isOnline then [last] else [])
  {
    FilterAppend(init, [last], IsOnline);
    assert Filter([last], IsOnline) == (if last.isOnline then [last] else []);
  }

  /** The number shown next to the people icon. */
  function OnlineCount(ps: seq<Participant>): (n: nat)
    ensures n <= |ps|
    ensures n == 0 <==> forall p :: p in ps ==> !p.isOnline
  {
    var online := OnlineParticipants(ps);
    assert |online| > 0 ==> online[0] in online;
    |online|
  }

  /** The positions of the online participants: an independent way to count them. */
  function OnlineIndices(ps: seq<Participant>): set<nat>
  {
    set i: nat | i < |ps| && ps[i].isOnline
  }

  /** Appending one participant adds its position exactly when it is online. */
  lemma OnlineIndicesSnoc(init: seq<Participant>, last: Participant)
    ensures OnlineIndices(init + [last]) == OnlineIndices(init) + (if last.isOnline then {|init|} else {})
  {
    var ps := init + [last];
    forall i: nat
      ensures i in OnlineIndices(ps) <==> i in OnlineIndices(init) + (if last.isOnline then {|init|} else {})
    {
      if i < |init| {
        assert ps[i] == init[i];
      }
    }
  }

  /** The displayed count is the number of positions holding an online participant. */
  lemma {:induction false} OnlineCountIsIndexCount(ps: seq<Participant>)
    ensures OnlineCount(ps) == |OnlineIndices(ps)|
    decreases |ps|
  {
    if |ps| > 0 {
      var init := ps[..|ps| - 1];
      var last := ps[|ps| - 1];
      assert ps == init + [last];
      FilterAppend(init, [last], IsOnline);
      OnlineCountIsIndexCount(init);
      OnlineIndicesSnoc(init, last);
      assert |init| !in OnlineIndices(init);
    }
  }

  /** The participants drawn as avatars. */
  function VisibleParticipants(ps: seq<Participant>): (r: seq<Participant>)
    ensures |r| == Min(MaxAvatars, OnlineCount(ps))
    ensures r == OnlineParticipants(ps)[..|r|]
    ensures forall p :: p in r ==> p in ps && p.isOnline
  {
    var online := OnlineParticipants(ps);
    var r := online[..Min(MaxAvatars, |online|)];
    assert forall p :: p in r ==> p in online;
    r
  }

  /** The "+N" badge, present only when some online participants have no avatar. */
  function Overflow(ps: seq<Participant>): (r: Option<nat>)
    ensures r.Some? <==> OnlineCount(ps) > MaxAvatars
    ensures r.Some? ==> r.value > 0
  {
    var n := OnlineCount(ps);
    if n > MaxAvatars then Some(n - MaxAvatars) else None
  }

  /** Every online participant is accounted for once: by an avatar or in the badge. */
  lemma AvatarsAndBadgeCoverOnline(ps: seq<Participant>)
    ensures |VisibleParticipants(ps)| + (if Overflow(ps).Some? then Overflow(ps).value else 0) == OnlineCount(ps)
  {
  }

  /** One drawn avatar. */
  datatype Avatar = Avatar(participantId: string, initial: string, highlighted: bool, tooltip: string, crown: bool)

  /** `name.charAt(0).toUpperCase()`: the upper-cased first character, or nothing for an empty name. */
  function Initial(name: string): (r: string)
    ensures |r| == (if |name| == 0 then 0 else 1)
    ensures |name| > 0 ==> LowerChar(r[0]) == LowerChar(name[0]) && !('a' <= r[0] <= 'z')
  {
    if |name| == 0 then "" else [UpperChar(name[0])]
  }

  /** The suffix a host's tooltip carries. */
  const HostSuffix: string := " (Host)"

  /** The avatar of `p` as seen by the participant `current` (if any). */
  function RenderAvatar(p: Participant, current: Option<string>): (a: Avatar)
    ensures a.participantId == p.id
    ensures a.highlighted <==> current == Some(p.id)
    ensures a.crown <==> p.isHost
    ensures a.initial == Initial(p.name)
    ensures |a.tooltip| >= |p.name| && a.tooltip[..|p.name|] == p.name
    ensures a.tooltip[|p.name|..] == (if p.isHost then HostSuffix else "")
  {
    var tooltip := p.name + (if p.isHost then HostSuffix else "");
    assert tooltip[..|p.name|] == p.name;
    Avatar(p.id, Initial(p.name), current == Some(p.id), tooltip, p.isHost)
  }

  /** The whole component. */
  datatype View = View(count: nat, avatars: seq<Avatar>, overflow: Option<nat>)

  /** `ParticipantList` rendered for `participants` and the viewer `current`. */
  function Render(participants: seq<Participant>, current: Option<string>): (v: View)
    ensures v.count == |OnlineIndices(participants)|
    ensures |v.avatars| == Min(MaxAvatars, v.count)
    ensures forall i :: 0 <= i < |v.avatars| ==>
      exists j :: 0 <= j < |participants| && participants[j].isOnline && participants[j].id == v.avatars[i].participantId
    ensures v.overflow.Some? <==> v.count > MaxAvatars
    ensures v.overflow.Some? ==> |v.avatars| + v.overflow.value == v.count
    ensures |v.avatars| == |VisibleParticipants(participants)|
    ensures forall i :: 0 <= i < |v.avatars| ==> v.avatars[i] == RenderAvatar(VisibleParticipants(participants)[i], current)
  {
    OnlineCountIsIndexCount(participants);
    var shown := VisibleParticipants(participants);
    var avatars := seq(|shown|, i requires 0 <= i < |shown| => RenderAvatar(shown[i], current));
    assert forall i :: 0 <= i < |shown| ==> shown[i] in participants && shown[i].isOnline;
    View(OnlineCount(participants), avatars, Overflow(participants))
  }

  /** The example from the component's tests: eight online users show five avatars and "+3". */
  lemma EightOnlineShowsPlusThree(ps: seq<Participant>)
    requires |ps| == 8 && forall i :: 0 <= i < 8 ==> ps[i].isOnline
    ensures |Render(ps, None).avatars| == 5 && Render(ps, None).overflow == Some(3)
  {
    FilterKeepsAll(ps, IsOnline);
  }

  /** A participant joining a session raises its online count by one. */
  lemma JoinRaisesOnlineCount(st: Store, sessionId: string, name: string, participantId: string)
    requires sessionId in st.sessions
    ensures var after := JoinSession(st, sessionId, name, participantId).result.value.session;
            OnlineCount(after.participants) == OnlineCount(st.sessions[sessionId].participants) + 1
  {
    var ps := st.sessions[sessionId].participants;
    FilterAppend(ps, [Participant(participantId, name, true, false)], IsOnline);
  }

  /** Leaving lowers the online count by one exactly when the first participant with the id was online. */
  lemma LeaveLowersOnlineCount(st: Store, sessionId: string, participantId: string)
    requires sessionId in st.sessions
    ensures var ps := st.sessions[sessionId].participants;
            var after := LeaveSession(st, sessionId, participantId).store.sessions[sessionId];
            && OnlineCount(after.participants) <= OnlineCount(ps)
            && (match FindParticipant(ps, participantId)
                case Some(i) => OnlineCount(after.participants) == OnlineCount(ps) - (if ps[i].isOnline then 1 else 0)
                case None => OnlineCount(after.participants) == OnlineCount(ps))
  {
    var ps := st.sessions[sessionId].participants;
    match FindParticipant(ps, participantId)
    case None =>
    case Some(i) =>
      FilterUpdateLength(ps, i, ps[i].(isOnline := false), IsOnline);
  }
}

=== FILE: seqs.dfy ===
/**
  Sequence helpers shared by the store and the participant list: the
  order-preserving filter that the application's `Array.prototype.filter`
  calls perform, and the "no duplicates" property of a registry whose
  entries come from a JavaScript `Set`.
 */
module Seqs {

  /** The elements of `s` that satisfy `p`, in their original order. */
  function Filter<T(==, !new)>(s: seq<T>, p: T -> bool): (r: seq<T>)
    ensures |r| <= |s|
    ensures forall x :: x in r <==> x in s && p(x)
    decreases |s|
  {
    if |s| == 0 then []
    else if p(s[0]) then [s[0]] + Filter(s[1..], p)
    else Filter(s[1..], p)
  }

  /** Filtering distributes over concatenation, so order is kept across a split. */
  lemma {:induction false} FilterAppend<T(!new)>(a: seq<T>, b: seq<T>, p: T -> bool)
    ensures Filter(a + b, p) == Filter(a, p) + Filter(b, p)
    decreases |a|
  {
    if |a| == 0 {
      assert a + b == b;
    } else {
      assert (a + b)[0] == a[0];
      assert (a + b)[1..] == a[1..] + b;
      FilterAppend(a[1..], b, p);
    }
  }

  /** Filtering a sequence whose every element passes gives the sequence back. */
  lemma {:induction false} FilterKeepsAll<T(!new)>(s: seq<T>, p: T -> bool)
    requires forall i :: 0 <= i < |s| ==> p(s[i])
    ensures Filter(s, p) == s
    decreases |s|
  {
    if |s| != 0 {
      FilterKeepsAll(s[1..], p);
    }
  }

  /** Replacing one element changes the filtered length by the change in that element's verdict. */
  lemma FilterUpdateLength<T(!new)>(s: seq<T>, i: nat, x: T, p: T -> bool)
    requires i < |s|
    ensures |Filter(s[i := x], p)| + (if p(s[i]) then 1 else 0) == |Filter(s, p)| + (if p(x) then 1 else 0)
  {
    assert s == s[..i] + [s[i]] + s[i + 1..];
    assert s[i := x] == s[..i] + [x] + s[i + 1..];
    FilterAppend(s[..i] + [s[i]], s[i + 1..], p);
    FilterAppend(s[..i], [s[i]], p);
    FilterAppend(s[..i] + [x], s[i + 1..], p);
    FilterAppend(s[..i], [x], p);
  }

  /** An element that fails `p` contributes nothing to the filtered sequence. */
  lemma FilterSkipOne<T(!new)>(a: seq<T>, x: T, b: seq<T>, p: T -> bool)
    requires !p(x)
    ensures Filter(a + [x] + b, p) == Filter(a, p) + Filter(b, p)
  {
    assert Filter([x], p) == [];
    FilterAppend(a, [x], p);
    FilterAppend(a + [x], b, p);
  }

  /** Filtering out the one element that fails `p` deletes exactly its position. */
  lemma FilterRemoveAt<T(!new)>(s: seq<T>, i: nat, p: T -> bool)
    requires i < |s| && !p(s[i])
    requires forall j :: 0 <= j < |s| && j != i ==> p(s[j])
    ensures Filter(s, p) == s[..i] + s[i + 1..]
  {
    var a, x, b := s[..i], s[i], s[i + 1..];
    assert s == a + [x] + b;
    assert forall j :: 0 <= j < |a| ==> p(a[j]) by {
      forall j | 0 <= j < |a| ensures p(a[j]) {
        assert a[j] == s[j];
      }
    }
    assert forall j :: 0 <= j < |b| ==> p(b[j]) by {
      forall j | 0 <= j < |b| ensures p(b[j]) {
        assert b[j] == s[i + 1 + j];
      }
    }
    FilterKeepsAll(a, p);
    FilterKeepsAll(b, p);
    FilterSkipOne(a, x, b, p);
  }

  /** No element occurs twice. */
  predicate NoDup<T(==, !new)>(s: seq<T>)
  {
    forall i, j :: 0 <= i < j < |s| ==> s[i] != s[j]
  }

  /** Filtering never introduces a duplicate. */
  lemma {:induction false} FilterNoDup<T(!new)>(s: seq<T>, p: T -> bool)
    requires NoDup(s)
    ensures NoDup(Filter(s, p))
    decreases |s|
  {
    if |s| != 0 {
      assert NoDup(s[1..]) by {
        forall i, j | 0 <= i < j < |s[1..]|
          ensures s[1..][i] != s[1..][j]
        {
          assert s[1..][i] == s[i + 1] && s[1..][j] == s[j + 1];
        }
      }
      FilterNoDup(s[1..], p);
      if p(s[0]) {
        var rest := Filter(s[1..], p);
        assert s[0] !in s[1..] by {
          forall k | 0 <= k < |s[1..]| ensures s[1..][k] != s[0] {
            assert s[1..][k] == s[k + 1];
          }
        }
        assert s[0] !in rest;
        var r := [s[0]] + rest;
        forall i, j | 0 <= i < j < |r| ensures r[i] != r[j] {
          if i == 0 {
            assert r[j] == rest[j - 1];
            assert r[j] in rest;
          } else {
            assert r[i] == rest[i - 1] && r[j] == rest[j - 1];
          }
        }
      }
    }
  }
}

=== FILE: store_properties.dfy ===
/**
  Properties that relate several calls of the session store: fresh ids,
  last-writer-wins code updates, language resets, output replacement,
  leaving twice, and the subscribe/unsubscribe round trip.
 */
module StoreProperties {
  import opened Seqs
  import opened Interview
  import opened Api

  /** Two sessions created one after the other with unused ids get distinct ids, and both stay stored. */
  lemma CreateTwiceDistinct(st: Store, t1: string, l1: Language, h1: string, id1: string, host1: string,
                            t2: string, l2: Language, h2: string, id2: string, host2: string)
    requires id1 !in st.sessions
    requires id2 !in CreateSession(st, t1, l1, h1, id1, host1).store.sessions
    ensures var s1 := CreateSession(st, t1, l1, h1, id1, host1);
            var s2 := CreateSession(s1.store, t2, l2, h2, id2, host2);
            && s1.result.id != s2.result.id
            && s2.store.sessions[id1] == s1.result && s2.store.sessions[id2] == s2.result
            && |s2.store.sessions| == |st.sessions| + 2
  {
    var s1 := CreateSession(st, t1, l1, h1, id1, host1);
    var s2 := CreateSession(s1.store, t2, l2, h2, id2, host2);
    assert s1.store.sessions.Keys == st.sessions.Keys + {id1};
    assert |s1.store.sessions.Keys| == |st.sessions.Keys| + 1;
    assert s2.store.sessions.Keys == s1.store.sessions.Keys + {id2};
    assert |s2.store.sessions.Keys| == |s1.store.sessions.Keys| + 1;
  }

  /** Applying the same code change twice leaves the store as applying it once. */
  lemma UpdateCodeIdempotent(st: Store, change: CodeChange)
    ensures UpdateCode(UpdateCode(st, change).store, change).store == UpdateCode(st, change).store
  {
  }

  /** Of two code changes to one session, the second one alone decides the stored session. */
  lemma UpdateCodeLastWriterWins(st: Store, first: CodeChange, second: CodeChange)
    requires first.sessionId == second.sessionId
    ensures UpdateCode(UpdateCode(st, first).store, second).store == UpdateCode(st, second).store
  {
  }

  /** Who sent a code change makes no difference to its effect. */
  lemma UpdateCodeIgnoresAuthor(st: Store, change: CodeChange, author: string)
    ensures UpdateCode(st, change.(participantId := author)) == UpdateCode(st, change)
  {
  }

  /** A language change discards any edit made before it. */
  lemma ChangeLanguageDiscardsEdits(st: Store, change: CodeChange, language: Language)
    ensures ChangeLanguage(UpdateCode(st, change).store, change.sessionId, language).store
         == ChangeLanguage(st, change.sessionId, language).store
  {
    var sid := change.sessionId;
    if sid in st.sessions {
      var before := st.sessions[sid];
      var edited := UpdateCode(st, change).store;
      assert edited == Put(st, sid, before.(code := change.code));
      var after := ChangeLanguage(st, sid, language).result.value;
      assert ChangeLanguage(edited, sid, language).result.value == after;
      PutTwice(st, sid, before.(code := change.code), after);
    }
  }

  /** Storing under one key twice keeps only the second session. */
  lemma PutTwice(st: Store, sessionId: string, first: Session, second: Session)
    ensures Put(Put(st, sessionId, first), sessionId, second) == Put(st, sessionId, second)
  {
    assert st.sessions[sessionId := first][sessionId := second] == st.sessions[sessionId := second];
  }

  /** Changing to the same language twice leaves the store as changing once. */
  lemma ChangeLanguageIdempotent(st: Store, sessionId: string, language: Language)
    ensures var once := ChangeLanguage(st, sessionId, language).store;
            ChangeLanguage(once, sessionId, language).store == once
  {
  }

  /** A second run replaces the first run's output: only the latest result is kept. */
  lemma ExecuteKeepsLatestOnly(st: Store, sessionId: string, run1: JsOutcome, t1: real, run2: JsOutcome, t2: real)
    requires sessionId in st.sessions
    ensures var first := ExecuteCode(st, sessionId, run1, t1);
            var second := ExecuteCode(first.store, sessionId, run2, t2);
            && second.result.Ok?
            && second.store.sessions[sessionId] == st.sessions[sessionId].(output := Some(second.result.value))
  {
  }

  /** Looking up an id again after its owner went offline finds the same participant. */
  lemma {:induction false} FindAfterMarkOffline(ps: seq<Participant>, participantId: string)
    ensures FindParticipant(MarkOffline(ps, participantId), participantId) == FindParticipant(ps, participantId)
  {
    var ms := MarkOffline(ps, participantId);
    assert forall j :: 0 <= j < |ps| ==> ms[j].id == ps[j].id;
    match FindParticipant(ps, participantId)
    case None =>
      FindNone(ms, participantId);
    case Some(i) =>
      FindFirst(ms, participantId, i);
  }

  /** `FindParticipant` returns nothing when no id matches. */
  lemma {:induction false} FindNone(ps: seq<Participant>, participantId: string)
    requires forall j :: 0 <= j < |ps| ==> ps[j].id != participantId
    ensures FindParticipant(ps, participantId) == None
  {
  }

  /** `FindParticipant` returns the first matching index. */
  lemma {:induction false} FindFirst(ps: seq<Participant>, participantId: string, i: nat)
    requires i < |ps| && ps[i].id == participantId
    requires forall j :: 0 <= j < i ==> ps[j].id != participantId
    ensures FindParticipant(ps, participantId) == Some(i)
  {
  }

  /** Leaving twice has the same effect on the store as leaving once. */
  lemma LeaveIdempotent(st: Store, sessionId: string, participantId: string)
    ensures var once := LeaveSession(st, sessionId, participantId).store;
            LeaveSession(once, sessionId, participantId).store == once
  {
    if sessionId in st.sessions {
      var ps := st.sessions[sessionId].participants;
      var ms := MarkOffline(ps, participantId);
      FindAfterMarkOffline(ps, participantId);
      assert MarkOffline(ms, participantId) == ms;
    }
  }

  /** Registering a callback a second time is no registration at all: the registry is a set. */
  lemma SubscribeIdempotent(st: Store, sessionId: string, callback: CallbackId)
    ensures var once := Subscribe(st, sessionId, callback);
            Subscribe(once, sessionId, callback) == once
  {
  }

  /** Subscribing and unsubscribing keep every session's registry free of duplicates. */
  lemma RegistryStaysDuplicateFree(st: Store, sessionId: string, callback: CallbackId)
    requires forall k :: k in st.subscribers ==> NoDup(st.subscribers[k])
    ensures var r := Subscribe(st, sessionId, callback);
            forall k :: k in r.subscribers ==> NoDup(r.subscribers[k])
    ensures var r := Unsubscribe(st, sessionId, callback);
            forall k :: k in r.subscribers ==> NoDup(r.subscribers[k])
  {
    var ls := Listeners(st, sessionId);
    if callback !in ls {
      var ls' := ls + [callback];
      forall i, j | 0 <= i < j < |ls'| ensures ls'[i] != ls'[j] {
        if j == |ls| { assert ls'[i] in ls; }
      }
    }
    if sessionId in st.subscribers {
      FilterNoDup(st.subscribers[sessionId], c => c != callback);
    }
  }

  /**
    Unsubscribing a callback that subscribing had added gives every
    session back the listeners it had before.
   */
  lemma UnsubscribeUndoesSubscribe(st: Store, sessionId: string, callback: CallbackId)
    requires callback !in Listeners(st, sessionId)
    ensures var r := Unsubscribe(Subscribe(st, sessionId, callback), sessionId, callback);
            forall k :: Listeners(r, k) == Listeners(st, k)
  {
    var ls := Listeners(st, sessionId);
    var p := (c: CallbackId) => c != callback;
    FilterAppend(ls, [callback], p);
    FilterKeepsAll(ls, p);
    assert Filter([callback], p) == [];
  }

  /**
    After unsubscribing, a code update to that session reaches every
    other registered listener and never the removed one.
   */
  lemma UnsubscribedMissesUpdates(st: Store, sessionId: string, callback: CallbackId, change: CodeChange)
    requires change.sessionId == sessionId && sessionId in st.sessions
    ensures var r := UpdateCode(Unsubscribe(st, sessionId, callback), change);
            && (forall i :: 0 <= i < |r.deliveries| ==> r.deliveries[i].callback != callback)
            && (forall c :: c in Listeners(st, sessionId) && c != callback ==>
                  exists i :: 0 <= i < |r.deliveries| && r.deliveries[i].callback == c)
  {
    var st' := Unsubscribe(st, sessionId, callback);
    var r := UpdateCode(st', change);
    var ls := Listeners(st', sessionId);
    forall i | 0 <= i < |r.deliveries| ensures r.deliveries[i].callback != callback {
      assert r.deliveries[i].callback == ls[i];
      assert ls[i] in ls;
    }
    forall c | c in Listeners(st, sessionId) && c != callback
      ensures exists i :: 0 <= i < |r.deliveries| && r.deliveries[i].callback == c
    {
      assert c in ls;
      var i :| 0 <= i < |ls| && ls[i] == c;
      assert r.deliveries[i].callback == c;
    }
  }

  /** The one error kind reads "Session not found". */
  lemma NotFoundMessage()
    ensures SessionNotFound.Message() == "Session not found"
  {
  }
}

=== FILE: strings.dfy ===
/**
  The JavaScript string operations the application relies on: `trim`
  (dialogs), `toLowerCase` and substring search (the language table's
  promises), and `join` (collecting console output).
 */
module Strings {

  /**
    The characters `String.prototype.trim` strips: the ECMAScript
    WhiteSpace set (tab, vertical tab, form feed, space, no-break space,
    byte-order mark and the Unicode space separators) and the
    LineTerminator set (line feed, carriage return, line and paragraph
    separators).
   */
  predicate IsWhitespace(c: char)
  {
    var n := c as int;
    n == 0x09 || n == 0x0A || n == 0x0B || n == 0x0C || n == 0x0D || n == 0x20
    || n == 0xA0 || n == 0x1680 || (0x2000 <= n <= 0x200A)
    || n == 0x2028 || n == 0x2029 || n == 0x202F || n == 0x205F
    || n == 0x3000 || n == 0xFEFF
  }

  /** Every character of `s` is whitespace (vacuously so for the empty string). */
  predicate AllWhitespace(s: string)
  {
    forall i :: 0 <= i < |s| ==> IsWhitespace(s[i])
  }

  /** `s` with its leading whitespace removed. */
  function TrimStart(s: string): (r: string)
    ensures |r| <= |s| && r == s[|s| - |r|..]
    ensures AllWhitespace(s[..|s| - |r|])
    ensures |r| > 0 ==> !IsWhitespace(r[0])
    decreases |s|
  {
    if |s| > 0 && IsWhitespace(s[0]) then TrimStart(s[1..]) else s
  }

  /** `s` with its trailing whitespace removed. */
  function TrimEnd(s: string): (r: string)
    ensures |r| <= |s| && r == s[..|r|]
    ensures AllWhitespace(s[|r|..])
    ensures |r| > 0 ==> !IsWhitespace(r[|r| - 1])
    decreases |s|
  {
    if |s| > 0 && IsWhitespace(s[|s| - 1]) then TrimEnd(s[..|s| - 1]) else s
  }

  /**
    `String.prototype.trim`: the longest infix of `s` that neither starts
    nor ends with whitespace; everything cut away on either side is
    whitespace, and the result is empty exactly when `s` is all whitespace.
   */
  function Trim(s: string): (r: string)
    ensures |r| == 0 <==> AllWhitespace(s)
    ensures |r| > 0 ==> !IsWhitespace(r[0]) && !IsWhitespace(r[|r| - 1])
  {
    var t := TrimStart(s);
    var r := TrimEnd(t);
    assert |r| == 0 ==> AllWhitespace(s) by {
      if |r| == 0 {
        assert |t| == 0;
        assert s == s[..|s| - |t|];
      }
    }
    r
  }

  /** What `Trim` cuts away on either side of its result is whitespace. */
  lemma TrimIsInfix(s: string)
    ensures var r := Trim(s);
            exists k :: 0 <= k <= |s| - |r| && r == s[k..k + |r|]
                        && AllWhitespace(s[..k]) && AllWhitespace(s[k + |r|..])
  {
    var t := TrimStart(s);
    var k := |s| - |t|;
    var r := TrimEnd(t);
    assert Trim(s) == r;
    assert t == s[k..] && r == t[..|r|];
    assert r == s[k..k + |r|];
    assert AllWhitespace(s[..k]);
    assert s[k + |r|..] == t[|r|..];
    assert AllWhitespace(s[k + |r|..]);
  }

  /** Trimming is idempotent. */
  lemma TrimIdempotent(s: string)
    ensures Trim(Trim(s)) == Trim(s)
  {
    var r := Trim(s);
    assert TrimStart(r) == r;
    assert TrimEnd(r) == r;
  }

  /** Whitespace padding on either side never changes the trimmed value. */
  lemma {:induction false} TrimIgnoresPadding(left: string, s: string, right: string)
    requires AllWhitespace(left) && AllWhitespace(right)
    ensures Trim(left + s + right) == Trim(s)
  {
    assert left + s + right == left + (s + right);
    TrimStartPadding(left, s + right);
    var t := TrimStart(s);
    TrimStartAppend(s, right);
    if |t| > 0 {
      TrimEndPadding(t, right);
      assert TrimStart(left + s + right) == t + right;
    } else {
      TrimStartAll(right);
      assert TrimStart(left + s + right) == [];
    }
  }

  /** Leading whitespace is skipped by `TrimStart`. */
  lemma {:induction false} TrimStartPadding(left: string, s: string)
    requires AllWhitespace(left)
    ensures TrimStart(left + s) == TrimStart(s)
    decreases |left|
  {
    if |left| == 0 {
      assert left + s == s;
    } else {
      assert (left + s)[1..] == left[1..] + s;
      TrimStartPadding(left[1..], s);
    }
  }

  /** Trailing whitespace is skipped by `TrimEnd`. */
  lemma {:induction false} TrimEndPadding(s: string, right: string)
    requires AllWhitespace(right)
    ensures TrimEnd(s + right) == TrimEnd(s)
    decreases |right|
  {
    if |right| == 0 {
      assert s + right == s;
    } else {
      assert (s + right)[..|s + right| - 1] == s + right[..|right| - 1];
      TrimEndPadding(s, right[..|right| - 1]);
    }
  }

  /** An all-whitespace string trims to nothing from the start. */
  lemma TrimStartAll(s: string)
    requires AllWhitespace(s)
    ensures TrimStart(s) == []
  {
  }

  /** `TrimStart` of a concatenation only looks into the second part when the first is all whitespace. */
  lemma {:induction false} TrimStartAppend(s: string, right: string)
    ensures |TrimStart(s)| > 0 ==> TrimStart(s + right) == TrimStart(s) + right
    ensures |TrimStart(s)| == 0 ==> TrimStart(s + right) == TrimStart(right)
    decreases |s|
  {
    if |s| == 0 {
      assert s + right == right;
    } else if IsWhitespace(s[0]) {
      assert (s + right)[1..] == s[1..] + right;
      TrimStartAppend(s[1..], right);
    }
  }

  /** ASCII lower-casing of one character. */
  function LowerChar(c: char): char
  {
    if 'A' <= c <= 'Z' then (c as int + 32) as char else c
  }

  /** `String.prototype.toLowerCase`, restricted to the ASCII letters. */
  function ToLower(s: string): (r: string)
    ensures |r| == |s|
    ensures forall i :: 0 <= i < |s| ==> r[i] == LowerChar(s[i])
  {
    seq(|s|, i requires 0 <= i < |s| => LowerChar(s[i]))
  }

  /** ASCII upper-casing of one character. */
  function UpperChar(c: char): char
  {
    if 'a' <= c <= 'z' then (c as int - 32) as char else c
  }

  /** `sub` occurs in `s` starting at index `k`. */
  predicate OccursAt(s: string, sub: string, k: int)
  {
    0 <= k <= |s| - |sub| && s[k..k + |sub|] == sub
  }

  /** `String.prototype.includes`. */
  ghost predicate Contains(s: string, sub: string)
  {
    exists k :: OccursAt(s, sub, k)
  }

  /** Case-insensitive `includes`, as `s.toLowerCase()` searched for `sub.toLowerCase()`. */
  ghost predicate ContainsIgnoreCase(s: string, sub: string)
  {
    Contains(ToLower(s), ToLower(sub))
  }

  /** Finding `sub` with its exact case is enough to find it case-insensitively. */
  lemma ContainsThenContainsIgnoreCase(s: string, sub: string)
    requires Contains(s, sub)
    ensures ContainsIgnoreCase(s, sub)
  {
    var k :| OccursAt(s, sub, k);
    assert ToLower(s)[k..k + |sub|] == ToLower(sub);
    assert OccursAt(ToLower(s), ToLower(sub), k);
  }

  /** Containment is transitive. */
  lemma ContainsTransitive(a: string, b: string, c: string)
    requires Contains(a, b) && Contains(b, c)
    ensures Contains(a, c)
  {
    var i :| OccursAt(a, b, i);
    var j :| OccursAt(b, c, j);
    forall t | 0 <= t < |c| ensures a[i + j + t] == c[t] {
      assert c[t] == b[j..j + |c|][t] == b[j + t];
      assert b[j + t] == a[i..i + |b|][j + t] == a[i + j + t];
    }
    assert a[i + j..i + j + |c|] == c;
    assert OccursAt(a, c, i + j);
  }

  /** `Array.prototype.join(sep)`. */
  function Join(parts: seq<string>, sep: string): (r: string)
    ensures |parts| == 0 ==> r == ""
    ensures |parts| > 0 ==> |r| >= |parts[0]|
    decreases |parts|
  {
    if |parts| == 0 then ""
    else if |parts| == 1 then parts[0]
    else parts[0] + sep + Join(parts[1..], sep)
  }

  /** The joined text starts with the first part, followed by the separator when more parts follow. */
  lemma JoinStartsWithFirst(parts: seq<string>, sep: string)
    requires |parts| > 0
    ensures Join(parts, sep)[..|parts[0]|] == parts[0]
    ensures |parts| > 1 ==>
      |Join(parts, sep)| >= |parts[0]| + |sep| && Join(parts, sep)[|parts[0]|..|parts[0]| + |sep|] == sep
  {
    if |parts| > 1 {
      assert Join(parts, sep) == parts[0] + sep + Join(parts[1..], sep);
    }
  }

  /** Every joined part can be found in the joined text. */
  lemma {:induction false} JoinContainsParts(parts: seq<string>, sep: string, i: int)
    requires 0 <= i < |parts|
    ensures Contains(Join(parts, sep), parts[i])
    decreases |parts|
  {
    var j := Join(parts, sep);
    if |parts| == 1 {
      assert OccursAt(j, parts[i], 0);
    } else if i == 0 {
      assert j[0..|parts[0]|] == parts[0];
      assert OccursAt(j, parts[i], 0);
    } else {
      JoinContainsParts(parts[1..], sep, i - 1);
      var rest := Join(parts[1..], sep);
      var k :| OccursAt(rest, parts[i], k);
      var off := |parts[0] + sep|;
      assert j == parts[0] + sep + rest;
      assert j[off + k..off + k + |parts[i]|] == rest[k..k + |parts[i]|];
      assert OccursAt(j, parts[i], off + k);
    }
  }

  /** The joined text is empty exactly when every part is empty and there is at most one. */
  lemma {:induction false} JoinEmpty(parts: seq<string>, sep: string)
    requires |sep| > 0
    ensures Join(parts, sep) == "" <==> |parts| == 0 || (|parts| == 1 && parts[0] == "")
    decreases |parts|
  {
    if |parts| >= 2 {
      assert |Join(parts, sep)| >= |sep|;
    }
  }
}
